=== FILE: README.md ===
# Sparse index array and node suppliers of the container hasher

This project models two sequential parts of the container hasher.

**The sparse index array** is `_Silver_vector_base` and `svector` in `silver_vector.h`.
- It is a buffer of optional back-references into an adapted container, and it stores neither its size nor its capacity.
- The last slot of every allocation holds an end tag. The tag is an *engaged* optional holding -1 or nullptr.
- The capacity is a power of two of at least 2. The size is the length of the engaged prefix.
- A slot is `Engaged(v)`, `Hole` or `Sentinel`, and a buffer is a `seq` of slots.
- The invariant `Valid` combines two parts:
  - `Tagged`: a power-of-two length ≥ 2, with the tag in the last slot and nowhere else;
  - `Partitioned`: no engaged slot follows a non-engaged one.
- Clear, erase and copy are proved to keep `Valid`. Construct-at keeps `Valid` exactly when the position is at most the size; a store further out breaks the partition.
- Fresh memory from the allocator is indeterminate. The model fills it with an arbitrary slot `junk`, which may even read as the tag. The corrected operations are proved for every `junk`, because they fill by position (`FillRange`). The as-written ones are shown to go wrong for a particular `junk`.

**The node suppliers** are in `hasher.h`.
- `_ReuseOrAllocNode` pops nodes from a free list and allocates only when the list is empty. `_AllocNode` always allocates. Both are modelled as one `Acquire` operation.
- `_NodePtrGuard` frees a recycled node whose in-place construction fails. That failure is a boolean parameter.
- The host allocator is a ledger of issued and freed block ids.
  - `Sound` means no block is issued twice and none is freed twice or freed before being issued.
  - `Accounted` means every issued block is, exactly once, freed, pooled or handed to the table.
- Node links, node iterators (`_M_incr`, `operator==`) and the key-extraction policy `_Select1st` are modelled too. Types in `_Select1st` carry a top-level `const`, so the `const` specialisations of `__1st_type` are modelled.

Modules, one file each:
- `Pow2` covers powers of two and the capacity rule.
- `SparseArray` holds the slots, the invariant, the size, the constructors and the buffer helpers.
- `SparseOps` holds the capacity probe, the end search, construct-at, clear, erase and copy.
- `SparseAsWritten` models the source's code where it departs from its documented contract, with a counterexample for each departure.
- `HostAllocator` is the ledger.
- `ArrayLifetime` tracks buffer ownership across construction, moves and destruction.
- `HashNodes` holds nodes, links and iterators.
- `NodePool` holds the two suppliers.
- `KeyExtract` is `_Select1st`.
- `Wrappers` holds `Option`.

Points where the model follows the code rather than a summary of it:
- `_M_find_end` returns a second value. It is not the buffer's capacity but the capacity at which its doubling probe stopped. The doc comments (silver_vector.h:341, 408) call it the minimal capacity adequate for the size; it is adequate but not minimal (see Left out). `SparseOps.FindEnd` returns that value. `SparseOps.ProbedCapacity` characterises it, and `SparseOps.ProbedCapacityUnique` shows that the characterisation names exactly one value. The buffer's capacity comes from `SparseOps.Capacity`.
- `svector::size` calls an `_M_size` that the base class does not declare. The copy constructor calls an equally missing `size()`. Both are modelled as the size half of `_M_cap_size`.
- No erase member exists in the code. `SparseOps.Erase` models the class comment's description, "bubble to the end, then disengage".
- The sized constructor allocates the least power of two ≥ max(2, n). So the copy and list constructors, which pass the element count n, need n + 1 slots for the tag to have a slot of its own. The corrected `Build` asks for n + 1 slots. See the Findings section.

## Model

| member | source | states |
|---|---|---|
| Pow2.CapacityFor | silver_vector.h:246-255 | the sized constructor's capacity is a power of two, at least 2 and at least n, and is 2 or below 2n |
| Pow2.CapacityForIsLeast | silver_vector.h:253-255 | no power of two ≥ 2 that holds n is smaller than the chosen capacity |
| Pow2.CapacityForPow2 | silver_vector.h:253-255 | a power of two n ≥ 2 is its own capacity, which is why n elements plus a tag do not fit |
| SparseArray.PartitionedPrefix | silver_vector.h:405-410 | in a partitioned buffer a slot is engaged exactly when its index is below the size, so the size is the first disengaged position |
| SparseArray.BoundaryPartitioned | silver_vector.h:405-410 | a boundary m with engaged slots exactly below it makes the buffer partitioned with size m |
| SparseArray.ValidSizeBound | silver_vector.h:308-319 | the end tag is not an element, so a valid buffer holds at most capacity - 1 values |
| SparseArray.New | silver_vector.h:176-201 | the default and allocator-taking constructors give a valid empty buffer of capacity 2 |
| SparseArray.WithCapacity | silver_vector.h:246-260 | the sized constructor's buffer has capacity CapacityFor(n) ≥ n with the tag in its last slot, leaves the other slots as allocated, and is Tagged exactly when fresh memory does not read as the tag |
| SparseArray.At | silver_vector.h:437-450 | `_M_val_at` and `operator[]` return the slot at index i itself; they read the end tag exactly at the last index, and an engaged slot exactly below the size |
| SparseArray.Blit | silver_vector.h:473-499 | the first count slots come from the source and the rest are unchanged |
| SparseArray.FillRange | silver_vector.h:452-461 | the fill as documented: every slot from the start position up to capacity - 1 becomes a hole, whatever it held, and earlier slots and the last slot are kept |
| SparseArray.Build | silver_vector.h:721-734 | for any fresh memory, list and copy construction give a valid buffer holding the values in order, with size equal to their count and capacity CapacityFor(count + 1) |
| SparseArray.FromList | silver_vector.h:721-734 | the list constructor's values are read back by index, and its capacity is the least power of two ≥ 2 that holds count + 1 |
| SparseArray.FromListRoundTrip | silver_vector.h:721-734 | reading back the engaged prefix of a list-built buffer gives the list |
| SparseOps.Capacity | silver_vector.h:321-333 | the doubling probe returns the buffer length, and every probed slot lies inside the buffer |
| SparseOps.FindEnd | silver_vector.h:335-403 | for every hint, including 0, a single element and hints ≥ capacity, the first result is the number of engaged slots and the second is the probed capacity |
| SparseOps.ProbedCapacityNotMinimal | silver_vector.h:337-357 | the probed capacity is not the minimal one: one value in 8 slots probes to 4 where 2 suffice, and three values in 8 slots probe to 8 where 4 suffice |
| SparseOps.ProbedCapacityUnique | silver_vector.h:348-356 | the probed capacity is determined by size and capacity alone, independent of the hint |
| SparseOps.CapSize | silver_vector.h:405-417 | the same two values as FindEnd, capacity first |
| SparseOps.SvSize | silver_vector.h:736-743 | size() is the number of engaged slots, and the engaged slots are exactly those below it |
| SparseOps.Empty | silver_vector.h:745-749 | empty() holds exactly when the size is 0, and exactly when no slot is engaged |
| SparseOps.Clear | silver_vector.h:419-434 | clearing keeps the capacity and the tag, makes every other slot a hole, and leaves size 0 |
| SparseOps.SvClear | silver_vector.h:751-759 | after clear() the array is valid, empty, and has its old capacity |
| SparseOps.MakeRoom | silver_vector.h:519-541 | the buffer grows exactly when the position holds the tag, to (pos + 1) * 2 slots with the prefix kept and holes after |
| SparseOps.Grown | silver_vector.h:521-533 | the grown buffer is twice as large, re-tagged in its new last slot, with the engaged prefix copied and holes after it |
| SparseOps.ConstructAt | silver_vector.h:500-545 | the value is stored at pos; in place, every other slot and the capacity are unchanged; at the tag the buffer grows to (pos + 1) * 2 keeping the prefix; storing at the boundary adds one value, storing inside the prefix keeps the size, and storing past the boundary breaks the partition |
| SparseOps.Erase | silver_vector.h:690 | erasing position pos keeps the buffer valid, removes exactly that value, and keeps the others in order |
| SparseOps.Copy | silver_vector.h:210-223 | the copy holds the same values in order and the same size, in the least buffer that holds size + 1, never larger than the source's |
| SparseAsWritten.CapacityAsWrittenLeavesBuffer | silver_vector.h:325-332 | with a halving probe, every capacity of 4 or more reads outside the buffer instead of returning |
| SparseAsWritten.ConvergeAsWrittenStuck | silver_vector.h:389-401 | with both bracket ends on the tag slot, the converging loop never returns |
| SparseAsWritten.FindEndAsWrittenDiverges | silver_vector.h:372-401 | on a valid 3-of-4 buffer with hint 5, the search as written is still looping after any number of iterations |
| SparseAsWritten.SevenOfEightValid | silver_vector.h:389-396 | the 7-of-8 counterexample buffer is valid, with size 7 |
| SparseAsWritten.FindEndAsWrittenStaleIndex | silver_vector.h:389-396 | on a valid 7-of-8 buffer with hint 6, the search as written answers 5 |
| SparseAsWritten.NewAsWrittenNotEmpty | silver_vector.h:176-183 | when fresh memory reads as engaged, the default-constructed array has size 1 |
| SparseAsWritten.ConstructAtAsWrittenAlwaysGrows | silver_vector.h:521-528 | whenever pos holds the tag, the "no need to reallocate" guard is true and the buffer doubles |
| SparseAsWritten.ConstructAtAsWrittenPhantom | silver_vector.h:528-534 | appending 8 to [7] with fresh memory reading 9 gives [7, 8, 9], of size 3 |
| SparseAsWritten.ClearAsWrittenRunsOff | silver_vector.h:428-433 | a loop that resets while the slot is not a hole runs off the end of a buffer that has no hole |
| SparseAsWritten.ClearAsWrittenFull | silver_vector.h:428-433 | on a full valid buffer, clear as written erases the tag and reads past the buffer |
| SparseAsWritten.BuildAsWrittenOverwritesTag | silver_vector.h:719-734 | for a power-of-two count ≥ 2, the sized buffer's tag sits inside the blitted range, and the fill reads past the buffer |
| SparseAsWritten.BuildKeepsTag | silver_vector.h:719-734 | the same counts give a valid buffer of twice the count when n + 1 slots are requested |
| SparseAsWritten.FillAsWritten | silver_vector.h:463-470 | the fill as written walks to the first slot that reads as the tag and leaves the buffer when there is none; earlier slots are kept; when the only tag ahead is the real one it gives the range fill |
| SparseAsWritten.FillAsWrittenStops | silver_vector.h:463-470 | the walk stops at the first slot at or after the start that reads as the tag: the slots before it become holes, and every other slot, that one included, is kept |
| SparseAsWritten.BuildAsWrittenStopsAtStaleTag | silver_vector.h:463-470 | the list constructor as written on five values allocates 8 slots; over fresh memory that reads as the tag the fill stops at slot 5 and leaves [1, 2, 3, 4, 5, tag, tag, tag], which is not tagged, while the corrected Build gives [1, 2, 3, 4, 5, hole, hole, tag] |
| HostAllocator.AllocateLive | hasher.h:156-158 | an allocation adds exactly one block, not live before, to the live blocks |
| HostAllocator.ReleaseLive | hasher.h:116-120 | releasing a live block removes exactly that block from the live ones |
| HostAllocator.ExchangeLive | silver_vector.h:528-540 | allocating a new block and then releasing an old live one exchanges the two among the live blocks and keeps the ledger sound |
| ArrayLifetime.Construct | silver_vector.h:176-183 | a constructed array owns exactly one new live buffer |
| ArrayLifetime.Destroy | silver_vector.h:167-174 | the destructor frees the owned buffer once, and does nothing for a null pointer |
| ArrayLifetime.SizedAsWrittenLeaks | silver_vector.h:250-260 | the sized constructor as written leaves the default constructor's buffer live, with no owner |
| ArrayLifetime.Move | silver_vector.h:203-208 | a move hands the buffer to the target and leaves the source null |
| ArrayLifetime.MoveAsWrittenFreesTwice | silver_vector.h:203-208 | with the pointer copied, destroying both objects frees the buffer twice |
| ArrayLifetime.MoveFreesOnce | silver_vector.h:203-208 | with the source nulled, destroying both objects frees the buffer exactly once |
| ArrayLifetime.AdoptTemporaryAsWrittenDangles | silver_vector.h:219-220 | assigning from a moved temporary as written leaves the array pointing at a freed buffer |
| ArrayLifetime.AdoptTemporary | silver_vector.h:219-220 | with a real move, the array owns the one new live buffer |
| ArrayLifetime.RegrowAsWrittenDangles | silver_vector.h:528-544 | growth as written frees the old buffer and then, through the temporary's destructor, the new one, so the array points at a freed buffer that the store at line 544 writes into |
| ArrayLifetime.Regrow | silver_vector.h:528-540 | growth with a real move frees the old buffer once and owns a new, distinct live buffer |
| HashNodes.LinkedTail | hasher.h:160-162 | popping the head of the free list leaves a linked list that starts at the head's next link and does not contain the head |
| HashNodes.Incr | hasher.h:295-297 | an increment moves to the node that the current node's `_M_nxt` link names, and to null after the last node |
| HashNodes.SameNode | hasher.h:299-302 | two node iterators compare equal exactly when they are the same iterator, that is, at the same node or both null |
| HashNodes.WalkList | hasher.h:277-297 | k increments from node s reach node s + k, and the end of the list is the null iterator |
| HashNodes.SameNodeSamePosition | hasher.h:299-302 | two iterators over one list are equal exactly when they are at the same position |
| NodePool.AllocateNode | hasher.h:156-158 | a fresh node is one new block, with a null next link and the given index and hash code |
| NodePool.GuardRelease | hasher.h:110-121 | an armed guard frees its node once, and a disarmed guard frees nothing |
| NodePool.AcquireReuse | hasher.h:152-170 | on an empty pool, one allocation and the pool stays empty; otherwise the old head is returned, the list shrinks to its tail, nothing is allocated, and a failed construction frees the head once |
| NodePool.AcquireFresh | hasher.h:186-189 | every acquisition is exactly one allocation, and there is no free list |
| NodePool.Acquire | hasher.h:152-189 | a built node has a null next link and the given index and hash code, and either supplier keeps every block accounted for |
| NodePool.RecycleFailedAccounted | hasher.h:164-167 | when construction fails, the guard's release keeps the ledger sound, so the node is not freed twice |
| NodePool.DeallocateNodes | hasher.h:149-150 | returning a list frees exactly its nodes |
| NodePool.DeallocateSound | hasher.h:149-150 | returning a list of live nodes frees none of them twice |
| NodePool.ReturnFreeList | hasher.h:149-150 | returning an accounted pool's free list leaves exactly the handed nodes live |
| NodePool.Destroy | hasher.h:149-150 | destroying the pool frees every pooled node exactly once and nothing else, leaving live exactly the nodes handed to the table |
| NodePool.PoolServesWithoutAllocating | hasher.h:156-161 | a pool with at least as many free nodes as requests serves them all from the list, in list order, with no allocation |
| NodePool.PoolThenAllocates | hasher.h:156-158 | the first request after the list runs out makes exactly one allocation |
| KeyExtract.KeyType | hasher.h:82-101 | `__1st_type` with a `const pair` case added: the key type of a pair or non-empty tuple has the shape of its first type, and a const argument has a const key type |
| KeyExtract.Get0 | hasher.h:44-52 | `std::get<0>` with the identity overload gives the value itself or one of its parts |
| KeyExtract.Select1st | hasher.h:103-107 | for a value of type t, const or not, the extracted key has the policy's key type; it is the first component of a pair or non-empty tuple, and the whole value otherwise |
| KeyExtract.PairKeyTypeIsTupleKeyType | hasher.h:98-101 | a pair, const or not, has the key type and the key of the tuple of its two components |
| KeyExtract.KeyTypeAsWrittenDiffers | hasher.h:86-101 | the key type as written differs from the corrected one exactly for const pairs |
| KeyExtract.ConstPairKeyAsWrittenIllTyped | hasher.h:90-107 | for `const pair<int, int>` the key type as written is the whole pair, which the `int` returned by `get<0>` does not have; the corrected key type is `const int` |
| KeyExtract.SetLikeKeyIsValue | hasher.h:44-52 | through the identity get<0>, a scalar is its own key, and the key of a pair with a scalar first component is that scalar |

## Left out

- Allocator traits, `memcpy` versus `uninitialized_copy_n`, `alignas` and object layout. Buffers are sequences, and blocks are ids in a ledger.
- The array's pointer iterators (silver_vector.h:549-681). They are pointer increments with no behaviour of their own.
- `_Node_const_iterator` (hasher.h:358-407). It refers to undeclared names and cannot be instantiated. `_Node_iterator_base::__value_type` names a member the node does not declare.
- `_Hashtable_hash_traits` (hasher.h:201-207). It depends on an external fast-hash trait.
- The hash table, its buckets, its rehash policy and the `revolver` container. These are only declared in these files.
- The `_Silver_value` wrapper. It only holds and swaps one value.
- Exceptions. A failed node construction is the boolean `fails`, and a host allocation never fails.
- The linear `_M_end` helpers (silver_vector.h:284-306). They are superseded by `_M_find_end` and depend on pointer ordering.
- Threads. Nothing here is concurrent.
- The copy assignment operator (silver_vector.h:231-240). It compares with an `==` the class does not define. Apart from that it is Copy followed by AdoptTemporary.
- Several lines that cannot compile as written are modelled as documented and not listed as findings:
  - the destructor passes the capacity where the buffer pointer belongs (silver_vector.h:171);
  - `_M_construct_at` frees `_pos`, an index, and returns a pointer where it declares a pair (silver_vector.h:515, 539, 545);
  - `_M_clear` calls `*_begin.reset()`, read here as `_begin->reset()` (silver_vector.h:431).
- Pow2.CapacityFor: the doubling of the 64-bit `size_type` is unbounded here. For a request above 2^63 the source's `_cap <<= 1` wraps to 0 and `while(_cap < n)` never terminates.
- SparseOps.FindEnd: its second result is the probe's stopping capacity, as the code computes it, not the minimal adequate capacity its doc comments promise. For [E, H, H, H, H, H, H, tag] it is 4 where CapacityFor(2) == 2 (ProbedCapacityNotMinimal). `_M_construct_at` only uses it in a guard that is always true, so the model keeps the code's value.
- SparseOps.FindEnd: the probe's shifts `2 << _inc` and `1 << _inc` (silver_vector.h:354-355) have `int` left operands, so they are 32-bit `int` shifts. `2 << 30` overflows once the probe passes capacity 2^30, and `_inc >= 32` is undefined. The model shifts unboundedly, so it describes only buffers of at most 2^30 slots correctly.
- SparseArray.Allocate: fresh memory is one repeated `junk` slot, not an arbitrary slot per position. The corrected operations overwrite all of it, and each counterexample needs only one value.
- SparseOps.ConstructAt: `Valid` is kept when pos ≤ Size(a). Storing at any pos > Size(a), including the tag of a buffer that is not full, breaks the partition (proved). The source leaves that to its caller, so the model promises only the slot contents there.
- KeyExtract: references and volatile are not modelled. `__1st_type<T&>` only adds `&` to the key type of T, so a reference argument has the key type of its referent.
- Hash codes, indices and cursors are unbounded numbers, not 64-bit words. Nothing in the node suppliers does arithmetic on them.

## Findings

| source | as written | input that shows it | evidently intended | confidence | as-written member | corrected member |
|---|---|---|---|---|---|---|
| silver_vector.h:331 | the capacity probe shifts right (`_cap >>= 1`) while the probed slot is not the tag | any buffer of capacity 4 or more: slot 1, then slot 0, then index -1 are probed | double the probe until it finds the tag | high; not executed | SparseAsWritten.CapacityAsWrittenLeavesBuffer | SparseOps.Capacity |
| silver_vector.h:382-401 | the second bracket correction tests `!= std::nullopt`, which the end tag passes; bfr and aft then both sit on the tag slot, and the difference 0 never reaches 1 | [10, 11, 12] in a capacity-4 buffer, hint 5 | move the bracket to the end only for an engaged slot | high; not executed | SparseAsWritten.FindEndAsWrittenDiverges | SparseOps.FindEnd |
| silver_vector.h:389-395 | when the bracket is already one wide, the answer is taken from the last probe index (`_idx + 1`), not from the bracket | [0 .. 6] in a capacity-8 buffer, hint 6: returns 5 for 7 values | answer bfr + 1 | high; not executed | SparseAsWritten.FindEndAsWrittenStaleIndex | SparseOps.FindEnd |
| silver_vector.h:176-183 | the default constructor constructs only slot 1 (the tag), leaving slot 0 uninitialised | fresh memory reading as an engaged value: the new array has size 1 | construct a hole in slot 0 | medium; not executed | SparseAsWritten.NewAsWrittenNotEmpty | SparseArray.New |
| silver_vector.h:525-534 | the guard `_cap < _new_cap` is always true, and the hole filling runs over the old buffer, so the new buffer keeps its fresh content after the copied prefix | [7], store 8 at the tag (pos 1), fresh memory reading 9: gives [7, 8, 9] | fill the new buffer with holes after the prefix | high; not executed | SparseAsWritten.ConstructAtAsWrittenPhantom | SparseOps.ConstructAt |
| silver_vector.h:428-433 | `while(*_begin)` treats the engaged end tag as an element: it resets the tag and walks past it | a full buffer, e.g. [5] in capacity 2 | stop at the first slot that is not an engaged element | high; not executed | SparseAsWritten.ClearAsWrittenFull | SparseOps.Clear |
| silver_vector.h:723-733 | the list constructor (and the copy constructor at silver_vector.h:219-222) sizes the buffer for n values with no slot for the tag | a list of 2 values: capacity 2, the blit overwrites the tag, the fill reads past the buffer | request n + 1 slots | high; not executed | SparseAsWritten.BuildAsWrittenOverwritesTag | SparseArray.Build |
| silver_vector.h:203-208 | the move constructor (and the defaulted move assignment at silver_vector.h:225-228) copies the raw pointer and leaves the source owning it | move an array, then destroy both objects: the buffer is freed twice | null the source's pointer | high; not executed | ArrayLifetime.MoveAsWrittenFreesTwice | ArrayLifetime.Move |
| silver_vector.h:219-220 | assigning from a moved temporary copies its pointer, then the temporary's destructor frees that buffer | copy-construct any array: the copy points at a freed buffer | transfer ownership from the temporary | high; not executed | ArrayLifetime.AdoptTemporaryAsWrittenDangles | ArrayLifetime.AdoptTemporary |
| silver_vector.h:250-260 | the sized constructor delegates to the default constructor, which allocates 2 slots, then allocates again over the same pointer | any sized construction: one 2-slot buffer stays live with no owner | allocate once | high; not executed | ArrayLifetime.SizedAsWrittenLeaks | ArrayLifetime.Construct |
| silver_vector.h:463-470 | `_M_fill_disengaged` walks until a slot reads as the end tag, so it reads fresh memory; its doc comment (silver_vector.h:452-461) promises the range up to capacity - 1 | the list constructor as written on [1, 2, 3, 4, 5] (capacity 8, so the tag has its own slot) over a recycled block that reads as the tag: the walk stops at slot 5, leaving [1, 2, 3, 4, 5, tag, tag, tag] | fill by position up to capacity - 1 | medium; not executed | SparseAsWritten.FillAsWrittenStops | silver_vector.h:463-470 | the walk stops at the first slot at or after the start that reads as the tag: the slots before it become holes, and every other slot, that one included, is kept |
| SparseAsWritten.BuildAsWrittenStopsAtStaleTag | SparseArray.FillRange |
| hasher.h:90-107 | `__1st_type` has a `const std::tuple` specialisation but none for `const std::pair`, so a const pair is its own key type, and `operator()` must bind the `const K&` from `get<0>` to a `const pair&` | `_Select1st{}(p)` with `const std::pair<int, int> p` | `const pair<T, U>` has key type `const T`, as `const tuple<T, U>` does | medium; not executed | KeyExtract.ConstPairKeyAsWrittenIllTyped | KeyExtract.Select1st |
| silver_vector.h:539-544 | growth in `_M_construct_at` adopts the new buffer with `*this = std::move(_Silver_vector_base(_tmp))`, the defaulted move assignment, so the temporary's destructor frees `_tmp` and the store at line 544 writes into freed memory | store at the tag of any array | transfer ownership of the new buffer from the temporary | high; not executed | ArrayLifetime.RegrowAsWrittenDangles | ArrayLifetime.Regrow |

=== FILE: array_lifetime.dfy ===
/**
 * Ownership of the sparse index array's buffer, apart from its contents: an
 * array object holds the pointer to one buffer (or null once moved from),
 * and every buffer goes back to the host allocator exactly once.
 */
module ArrayLifetime {
  import opened HostAllocator

  /** The `_M_beg` pointer of an array object. */
  datatype Handle = Null | Owns(buffer: nat)

  /** The object owns a buffer that is still live. */
  predicate OwnsLive(h: Handle, l: Ledger)
  {
    h.Owns? && h.buffer in Live(l)
  }

  /** Construction as documented (default, sized, copy, from a list): exactly one new buffer, owned by the object. */
  function Construct(l: Ledger): (r: (Handle, Ledger))
    ensures Sound(l) ==> Sound(r.1) && OwnsLive(r.0, r.1) && r.0.buffer !in Live(l)
    ensures Sound(l) ==> Live(r.1) == Live(l) + multiset{r.0.buffer}
  {
    var (l1, id) := Allocate(l);
    assert Sound(l) ==> Live(l1) == Live(l) + multiset{id} && id !in Live(l) by {
      if Sound(l) {
        AllocateLive(l);
      }
    }
    (Owns(id), l1)
  }

  /**
   * The sized constructor as written: it delegates to the default
   * constructor, which allocates a 2-slot buffer, then allocates the sized
   * buffer over the same pointer.
   */
  function SizedAsWritten(l: Ledger): (Handle, Ledger)
  {
    var (h0, l0) := Construct(l);
    var (l1, id) := Allocate(l0);
    (Owns(id), l1)
  }

  /** The 2-slot buffer stays live with no object pointing at it. */
  lemma SizedAsWrittenLeaks(l: Ledger)
    requires Sound(l)
    ensures var (h, l') := SizedAsWritten(l);
            l.next in Live(l') && h == Owns(l.next + 1) && |Live(l')| == |Live(l)| + 2
  {
  }

  /** The destructor: `if (_M_beg) deallocate`. */
  function Destroy(h: Handle, l: Ledger): (r: Ledger)
    ensures h.Null? ==> r == l
    ensures h.Owns? ==> r.issued == l.issued && r.freed == l.freed + multiset{h.buffer}
    ensures Sound(l) && OwnsLive(h, l) ==> Sound(r) && Live(r) == Live(l) - multiset{h.buffer}
  {
    match h
    case Null => l
    case Owns(id) =>
      assert id in Live(l) ==> Live(Release(l, id)) == Live(l) - multiset{id} by {
        if id in Live(l) {
          ReleaseLive(l, id);
        }
      }
      Release(l, id)
  }

  /** The move constructor and the defaulted move assignment as written: the raw pointer is copied. */
  function MoveAsWritten(src: Handle): (Handle, Handle)
  {
    (src, src)
  }

  /** Move as documented: the target takes the buffer and the source is left null. */
  function Move(src: Handle): (r: (Handle, Handle))
    ensures r.0 == src && r.1 == Null
  {
    (src, Null)
  }

  /** With the pointer copied, destroying the moved-to and the moved-from object frees the buffer twice. */
  lemma MoveAsWrittenFreesTwice(l: Ledger, id: nat)
    requires Sound(l) && id in Live(l)
    ensures var (dst, src) := MoveAsWritten(Owns(id));
            var l' := Destroy(src, Destroy(dst, l));
            l'.freed[id] == 2 && !Sound(l')
  {
  }

  /** With the source nulled, destroying both objects frees the buffer exactly once. */
  lemma MoveFreesOnce(l: Ledger, id: nat)
    requires Sound(l) && id in Live(l)
    ensures var (dst, src) := Move(Owns(id));
            var l' := Destroy(src, Destroy(dst, l));
            Sound(l') && l'.freed[id] == 1 && Live(l') == Live(l) - multiset{id}
  {
  }

  /**
   * `*this = std::move(_Silver_vector_base(...))` as written (copy
   * constructor, growth in `_M_construct_at`): the object takes the
   * temporary's pointer, then the temporary's destructor frees the buffer.
   */
  function AdoptTemporaryAsWritten(l: Ledger): (Handle, Ledger)
  {
    var (tmp, l1) := Construct(l);
    var (self, rest) := MoveAsWritten(tmp);
    (self, Destroy(rest, l1))
  }

  /** The object is left pointing at a freed buffer. */
  lemma AdoptTemporaryAsWrittenDangles(l: Ledger)
    requires Sound(l)
    ensures var (self, l') := AdoptTemporaryAsWritten(l);
            self.Owns? && self.buffer !in Live(l')
  {
  }

  /** Adopting a temporary with a real move: the object owns the one new live buffer. */
  function AdoptTemporary(l: Ledger): (r: (Handle, Ledger))
    ensures Sound(l) ==> Sound(r.1) && OwnsLive(r.0, r.1) && Live(r.1) == Live(l) + multiset{r.0.buffer}
  {
    var (tmp, l1) := Construct(l);
    var (self, rest) := Move(tmp);
    (self, Destroy(rest, l1))
  }

  /**
   * The buffer exchange of a growing `_M_construct_at` as written: the new
   * buffer is allocated, the old one freed, and the new one adopted from a
   * temporary whose destructor then frees it.
   */
  function RegrowAsWritten(h: Handle, l: Ledger): (Handle, Ledger)
  {
    var (tmp, l1) := Construct(l);
    var l2 := Destroy(h, l1);
    var (self, rest) := MoveAsWritten(tmp);
    (self, Destroy(rest, l2))
  }

  /** After growth as written the array points at a freed buffer, which the store that follows writes into. */
  lemma RegrowAsWrittenDangles(h: Handle, l: Ledger)
    requires Sound(l) && OwnsLive(h, l)
    ensures var (self, l') := RegrowAsWritten(h, l);
            self.Owns? && self.buffer != h.buffer && self.buffer !in Live(l') && h.buffer !in Live(l')
  {
  }

  /**
   * The buffer exchange of a growing `_M_construct_at`, as documented: the
   * new buffer is allocated (and filled) before the old one is freed.
   */
  function Regrow(h: Handle, l: Ledger): (r: (Handle, Ledger))
    requires Sound(l) && OwnsLive(h, l)
    ensures Sound(r.1) && OwnsLive(r.0, r.1) && r.0 != h
    ensures Live(r.1) == Live(l) - multiset{h.buffer} + multiset{r.0.buffer}
  {
    ExchangeLive(l, h.buffer);
    var c := Construct(l);
    (c.0, Destroy(h, c.1))
  }
}

=== FILE: hash_nodes.dfy ===
/**
 * Hash-table nodes and node iterators. A node carries a link to the next
 * node, its cached hash code and a back-reference into the adapted
 * container; node iterators walk the links.
 */
module HashNodes {
  import opened Wrappers

  /**
   * `_Hash_node_index_base::_M_index`: a position for random-access
   * containers, an opaque cursor (the iterator's bits) otherwise.
   */
  datatype BackRef = Position(index: nat) | Cursor(handle: nat)

  /** `_Hash_node`: `id` stands for the node's address, `next` for `_M_nxt` (None is null). */
  datatype HashNode = HashNode(id: nat, next: Option<nat>, hashCode: nat, index: BackRef)

  function Ids(nodes: seq<HashNode>): (r: seq<nat>)
    ensures |r| == |nodes| && forall i :: 0 <= i < |nodes| ==> r[i] == nodes[i].id
  {
    seq(|nodes|, i requires 0 <= i < |nodes| => nodes[i].id)
  }

  /** A singly-linked list of distinct nodes, head first: each `next` names its successor, the last is null. */
  predicate Linked(nodes: seq<HashNode>)
  {
    && (forall i :: 0 <= i < |nodes| - 1 ==> nodes[i].next == Some(nodes[i + 1].id))
    && (|nodes| > 0 ==> nodes[|nodes| - 1].next == None)
    && (forall i, j :: 0 <= i < j < |nodes| ==> nodes[i].id != nodes[j].id)
  }

  /** Unlinking the head leaves a linked list, and the head's link named the new head. */
  lemma LinkedTail(nodes: seq<HashNode>)
    requires Linked(nodes) && |nodes| > 0
    ensures Linked(nodes[1..])
    ensures nodes[0].next == (if |nodes| > 1 then Some(nodes[1].id) else None)
    ensures multiset(Ids(nodes)) == multiset{nodes[0].id} + multiset(Ids(nodes[1..]))
    ensures nodes[0].id !in multiset(Ids(nodes[1..]))
  {
    var tail := nodes[1..];
    forall i, j | 0 <= i < j < |tail|
      ensures tail[i].id != tail[j].id
    {
      assert tail[i] == nodes[i + 1] && tail[j] == nodes[j + 1];
    }
    HeadNotInTail(nodes);
  }

  /** The ids of a list split into the head's id and the tail's, which do not contain it. */
  lemma HeadNotInTail(nodes: seq<HashNode>)
    requires |nodes| > 0
    requires forall i, j :: 0 <= i < j < |nodes| ==> nodes[i].id != nodes[j].id
    ensures multiset(Ids(nodes)) == multiset{nodes[0].id} + multiset(Ids(nodes[1..]))
    ensures nodes[0].id !in multiset(Ids(nodes[1..]))
  {
    var tailIds := Ids(nodes[1..]);
    assert Ids(nodes) == [nodes[0].id] + tailIds;
    forall k | 0 <= k < |tailIds|
      ensures tailIds[k] != nodes[0].id
    {
      assert tailIds[k] == nodes[k + 1].id;
    }
  }

  /** Node memory: what each node address currently holds. */
  type Heap = map<nat, HashNode>

  /** Every node of the list sits at its own address in the heap. */
  predicate Stored(heap: Heap, nodes: seq<HashNode>)
  {
    forall i :: 0 <= i < |nodes| ==> nodes[i].id in heap && heap[nodes[i].id] == nodes[i]
  }

  /** `_Node_iterator_base`: `_M_cur` is a node address or null. */
  datatype NodeIterator = NodeIterator(cur: Option<nat>)

  /** `_M_incr`: follow the current node's `_M_next()` link. */
  function Incr(it: NodeIterator, heap: Heap): (r: NodeIterator)
    requires it.cur.Some? && it.cur.value in heap
    ensures r.cur == heap[it.cur.value].next
  {
    NodeIterator(heap[it.cur.value].next)
  }

  /** `operator==` of node iterators: the same node (or both null). */
  predicate SameNode(x: NodeIterator, y: NodeIterator): (r: bool)
    ensures r <==> x == y
  {
    x.cur == y.cur
  }

  /** k increments from `it`; None when an increment would start from null or from an unknown address. */
  function Advance(it: NodeIterator, heap: Heap, k: nat): Option<NodeIterator>
    decreases k
  {
    if k == 0 then Some(it)
    else if it.cur.None? || it.cur.value !in heap then None
    else Advance(Incr(it, heap), heap, k - 1)
  }

  /**
   * Walking a stored linked list: k increments from node s reach node s + k,
   * the end of the list is the null iterator, and only it.
   */
  lemma {:induction false} WalkList(heap: Heap, nodes: seq<HashNode>, s: nat, k: nat)
    requires Linked(nodes) && Stored(heap, nodes) && s < |nodes| && s + k <= |nodes|
    ensures Advance(NodeIterator(Some(nodes[s].id)), heap, k)
            == Some(NodeIterator(if s + k < |nodes| then Some(nodes[s + k].id) else None))
    decreases k
  {
    if k > 0 {
      var it := NodeIterator(Some(nodes[s].id));
      if s + 1 < |nodes| {
        assert Incr(it, heap) == NodeIterator(Some(nodes[s + 1].id));
        WalkList(heap, nodes, s + 1, k - 1);
      } else {
        assert Incr(it, heap) == NodeIterator(None);
      }
    }
  }

  /** Iterators over distinct nodes of a list are equal exactly when they are at the same position. */
  lemma SameNodeSamePosition(heap: Heap, nodes: seq<HashNode>, i: nat, j: nat)
    requires Linked(nodes) && Stored(heap, nodes) && i < |nodes| && j < |nodes|
    ensures var x := Advance(NodeIterator(Some(nodes[0].id)), heap, i);
            var y := Advance(NodeIterator(Some(nodes[0].id)), heap, j);
            x.Some? && y.Some? && (SameNode(x.value, y.value) <==> i == j)
  {
    WalkList(heap, nodes, 0, i);
    WalkList(heap, nodes, 0, j);
  }
}

=== FILE: host_allocator.dfy ===
/**
 * The host allocator seen through its ledger: which blocks it has handed out
 * and which it has been given back. Both the sparse index array's buffers and
 * the hash table's nodes come from it. Blocks are named by the id the
 * allocator issues; ids are never reused, so the ledger shows a block freed
 * twice as a count of 2 and a leaked block as one issued but never freed.
 */
module HostAllocator {

  datatype Ledger = Ledger(next: nat, issued: multiset<nat>, freed: multiset<nat>)

  /** Every block issued once, and freed at most once and only after it was issued. */
  predicate Sound(l: Ledger)
  {
    && (forall id :: id in l.issued ==> id < l.next && l.issued[id] == 1)
    && (forall id :: id in l.freed ==> id in l.issued && l.freed[id] == 1)
  }

  /** Blocks handed out and not yet given back. */
  function Live(l: Ledger): multiset<nat>
  {
    l.issued - l.freed
  }

  /** `allocate`: a block that has never been handed out before. */
  function Allocate(l: Ledger): (r: (Ledger, nat))
    ensures r.0.issued == l.issued + multiset{r.1} && r.0.freed == l.freed
    ensures Sound(l) ==> r.1 !in l.issued && r.1 !in l.freed && Sound(r.0)
  {
    (Ledger(l.next + 1, l.issued + multiset{l.next}, l.freed), l.next)
  }

  /** `deallocate`: the block goes back to the allocator. */
  function Release(l: Ledger, id: nat): (r: Ledger)
    ensures r.issued == l.issued && r.freed == l.freed + multiset{id}
    ensures Sound(l) ==> (Sound(r) <==> id in Live(l))
  {
    Ledger(l.next, l.issued, l.freed + multiset{id})
  }

  /** Allocation adds exactly the new block to the live ones. */
  lemma AllocateLive(l: Ledger)
    requires Sound(l)
    ensures Live(Allocate(l).0) == Live(l) + multiset{Allocate(l).1}
    ensures Allocate(l).1 !in Live(l)
  {
    var (l1, id) := Allocate(l);
    forall x
      ensures Live(l1)[x] == (Live(l) + multiset{id})[x]
    {
      if x == id {
        assert l.issued[x] == 0 && l.freed[x] == 0;
      }
    }
  }

  /** Releasing a live block removes exactly that block from the live ones. */
  lemma ReleaseLive(l: Ledger, id: nat)
    requires id in Live(l)
    ensures Live(Release(l, id)) == Live(l) - multiset{id}
  {
    var r := Release(l, id);
    forall x
      ensures Live(r)[x] == (Live(l) - multiset{id})[x]
    {
    }
  }

  /** When every issued block is freed, in `kept` or in `rest`, the live blocks are those of `kept` and `rest`. */
  lemma Balance(l: Ledger, kept: multiset<nat>, rest: multiset<nat>)
    requires l.issued == l.freed + kept + rest
    ensures Live(l) == kept + rest
    ensures l.issued - (l.freed + kept) == rest
  {
    forall x
      ensures Live(l)[x] == (kept + rest)[x] && (l.issued - (l.freed + kept))[x] == rest[x]
    {
    }
  }

  /** Allocating a block and then releasing an older live one exchanges the two among the live blocks. */
  lemma ExchangeLive(l: Ledger, gone: nat)
    requires Sound(l) && gone in Live(l)
    ensures var (l1, id) := Allocate(l);
            && Sound(Release(l1, gone)) && id != gone && id in Live(Release(l1, gone))
            && Live(Release(l1, gone)) == Live(l) - multiset{gone} + multiset{id}
  {
    var (l1, id) := Allocate(l);
    AllocateLive(l);
    assert gone in Live(l1);
    ReleaseLive(l1, gone);
    forall x
      ensures (Live(l) + multiset{id} - multiset{gone})[x] == (Live(l) - multiset{gone} + multiset{id})[x]
    {
    }
  }
}

=== FILE: key_extract.dfy ===
/**
 * `_Select1st`, the key-extraction policy: the first component of a pair or
 * tuple, or the whole value otherwise, so that set-like tables (key is the
 * value) and map-like tables (key and mapped value) share one node layout.
 * Values and their types are modelled side by side, so that the result of
 * the extraction can be checked against the key type the policy computes,
 * const qualification included.
 */
module KeyExtract {

  /** Stored values: scalars, pairs, and tuples of any arity. */
  datatype Value = Scalar(x: int) | Pair(first: Value, second: Value) | Tuple(elems: seq<Value>)

  /**
   * Types: a shape and a top-level `const`. References are left to the value
   * category: `__1st_type<T&>` is `__1st_type<T>::__key_type&`, so the key
   * type of a reference is the reference to the key type computed here.
   */
  datatype Type = Type(isConst: bool, shape: Shape)
  datatype Shape = ScalarShape | PairShape(firstType: Type, secondType: Type) | TupleShape(elemTypes: seq<Type>)

  /** `const T`; adding const to a const type changes nothing. */
  function AddConst(t: Type): Type
  {
    Type(true, t.shape)
  }

  /** v is a value of type t; const does not change which values a type has. */
  predicate HasType(v: Value, t: Type)
    decreases t
  {
    match t.shape
    case ScalarShape => v.Scalar?
    case PairShape(a, b) => v.Pair? && HasType(v.first, a) && HasType(v.second, b)
    case TupleShape(ts) =>
      v.Tuple? && |v.elems| == |ts| && forall i :: 0 <= i < |ts| ==> HasType(v.elems[i], ts[i])
  }

  /**
   * `_Select1st::__1st_type<T>::__key_type` as written: the specialisations
   * for `tuple<K, ...>` (K), `const tuple<K, ...>` (const K) and
   * `pair<T, U>` (that of `tuple<T, U>`). There is none for `const pair`, so
   * a const pair falls to the primary template and is its own key type.
   */
  function KeyTypeAsWritten(t: Type): Type
  {
    match t.shape
    case ScalarShape => t
    case PairShape(a, _) => if t.isConst then t else a
    case TupleShape(ts) => if |ts| == 0 then t else if t.isConst then AddConst(ts[0]) else ts[0]
  }

  /**
   * `__key_type` with the missing `const pair<T, U>` specialisation added,
   * as that of `const tuple<T, U>`: the first type, made const. Any other
   * type (a scalar, the empty tuple) is its own key type. A const argument
   * always has a const key type.
   */
  function KeyType(t: Type): (k: Type)
    ensures t.isConst ==> k.isConst
    ensures t.shape.PairShape? ==> k.shape == t.shape.firstType.shape
    ensures t.shape.TupleShape? && |t.shape.elemTypes| > 0 ==> k.shape == t.shape.elemTypes[0].shape
  {
    match t.shape
    case ScalarShape => t
    case PairShape(a, _) => if t.isConst then AddConst(a) else a
    case TupleShape(ts) => if |ts| == 0 then t else if t.isConst then AddConst(ts[0]) else ts[0]
  }

  /**
   * `std::get<0>` as seen by `_Select1st`: the standard overloads for pairs
   * and non-empty tuples, and for anything else the identity overload that
   * the header adds. The result is the value itself or one of its parts.
   */
  function Get0(v: Value): (r: Value)
    ensures r == v || (v.Pair? && r == v.first) || (v.Tuple? && r in v.elems)
  {
    match v
    case Pair(a, _) => a
    case Tuple(es) => if |es| > 0 then es[0] else v
    case Scalar(_) => v
  }

  /**
   * `_Select1st::operator()`: the key of a stored value of type t. The key
   * has the key type the policy computes, so the call is well-formed.
   */
  function Select1st(v: Value, t: Type): (k: Value)
    requires HasType(v, t)
    ensures HasType(k, KeyType(t))
    ensures t.shape.PairShape? ==> k == v.first
    ensures t.shape.TupleShape? && |v.elems| > 0 ==> k == v.elems[0]
    ensures t.shape.ScalarShape? || t.shape == TupleShape([]) ==> k == v
  {
    var k := Get0(v);
    assert HasType(k, KeyType(t)) by {
      if t.shape.PairShape? {
        ConstKeepsValues(v.first, t.shape.firstType);
      } else if t.shape.TupleShape? && |v.elems| > 0 {
        ConstKeepsValues(v.elems[0], t.shape.elemTypes[0]);
      }
    }
    k
  }

  /** Adding const keeps the values of a type. */
  lemma ConstKeepsValues(v: Value, t: Type)
    ensures HasType(v, AddConst(t)) <==> HasType(v, t)
  {
  }

  /** A pair has the key type of the tuple made of its two types, const or not. */
  lemma PairKeyTypeIsTupleKeyType(a: Type, b: Type, isConst: bool, x: Value, y: Value)
    requires HasType(x, a) && HasType(y, b)
    ensures KeyType(Type(isConst, PairShape(a, b))) == KeyType(Type(isConst, TupleShape([a, b])))
    ensures Select1st(Pair(x, y), Type(isConst, PairShape(a, b)))
            == Select1st(Tuple([x, y]), Type(isConst, TupleShape([a, b])))
  {
  }

  /**
   * The as-written key type differs from the corrected one exactly on const
   * pairs, where it names the whole pair although `std::get<0>` yields the
   * first component.
   */
  lemma KeyTypeAsWrittenDiffers(t: Type)
    ensures KeyTypeAsWritten(t) != KeyType(t) <==> t.isConst && t.shape.PairShape?
  {
    if t.isConst && t.shape.PairShape? {
      var a := t.shape.firstType;
      assert a.shape < a < t.shape;
    }
  }

  /**
   * For a `const pair<int, int>` the first component returned by `std::get<0>`
   * is not of the as-written key type (the whole const pair), so
   * `operator()` cannot bind its result; the corrected key type is `const int`.
   */
  lemma ConstPairKeyAsWrittenIllTyped(x: int, y: int)
    ensures var intT := Type(false, ScalarShape);
            var t := Type(true, PairShape(intT, intT));
            && HasType(Pair(Scalar(x), Scalar(y)), t)
            && KeyTypeAsWritten(t) == t
            && !HasType(Get0(Pair(Scalar(x), Scalar(y))), KeyTypeAsWritten(t))
            && KeyType(t) == Type(true, ScalarShape)
            && HasType(Select1st(Pair(Scalar(x), Scalar(y)), t), KeyType(t))
  {
  }

  /** Extracting twice from a pair whose first component is a scalar gives that scalar again. */
  lemma SetLikeKeyIsValue(x: int, mapped: Value, isConst: bool, mt: Type)
    requires HasType(mapped, mt)
    ensures var t := Type(isConst, PairShape(Type(false, ScalarShape), mt));
            Select1st(Select1st(Pair(Scalar(x), mapped), t), KeyType(t)) == Scalar(x)
  {
  }
}

=== FILE: node_pool.dfy ===
/**
 * The node suppliers of the hash table: `_ReuseOrAllocNode`, which recycles
 * nodes from a free list before asking the host allocator for memory, and
 * `_AllocNode`, which always asks. Both implement one operation, acquiring a
 * node for an index and a hash code. The host allocator is tracked through
 * its ledger, so that "never leaked, never freed twice" can be stated.
 */
module NodePool {
  import opened Wrappers
  import opened HostAllocator
  import opened HashNodes

  /** The two suppliers: a free list of recycled nodes (`_M_nodes`), or none. */
  datatype Supplier = ReuseOrAlloc(free: seq<HashNode>) | AllocOnly

  /** The outcome of an acquisition: a constructed node, or a construction that failed. */
  datatype Acquired = Built(node: HashNode) | ConstructionFailed

  /** A supplier with the allocator it borrows and the nodes it has handed to the table. */
  datatype Pool = Pool(supplier: Supplier, ledger: Ledger, handed: multiset<nat>)

  function FreeList(s: Supplier): seq<HashNode>
  {
    if s.ReuseOrAlloc? then s.free else []
  }

  /**
   * Every block the host issued is, exactly once, either freed, on the free
   * list, or handed to the table; the free list is a proper linked list.
   */
  predicate Accounted(p: Pool)
  {
    && Sound(p.ledger)
    && Linked(FreeList(p.supplier))
    && p.ledger.issued == p.ledger.freed + multiset(Ids(FreeList(p.supplier))) + p.handed
  }

  /** `_M_allocate_node`: fresh memory from the host, constructed with the index and the hash code. */
  function AllocateNode(l: Ledger, index: BackRef, hashCode: nat): (r: (Ledger, HashNode))
    ensures r.0.issued == l.issued + multiset{r.1.id} && r.0.freed == l.freed
    ensures Sound(l) ==> Sound(r.0) && r.1.id !in l.issued
    ensures r.1.next == None && r.1.hashCode == hashCode && r.1.index == index
  {
    var (l1, id) := Allocate(l);
    (l1, HashNode(id, None, hashCode, index))
  }

  /** The destructor of `_NodePtrGuard`: free the node if the guard is still armed. */
  function GuardRelease(l: Ledger, armed: Option<nat>): (r: Ledger)
    ensures armed.None? ==> r == l
    ensures armed.Some? ==> r.issued == l.issued && r.freed == l.freed + multiset{armed.value}
  {
    match armed
    case None => l
    case Some(id) => Release(l, id)
  }

  /**
   * `_ReuseOrAllocNode::operator()`. With an empty free list it allocates.
   * Otherwise it pops the head (the list continues at the head's `next`),
   * clears the head's link and constructs the node in place under an armed
   * guard; `fails` says whether that construction fails. On failure the
   * guard frees the node; on success it is disarmed and frees nothing.
   */
  function AcquireReuse(free: seq<HashNode>, l: Ledger, handed: multiset<nat>, index: BackRef, hashCode: nat, fails: bool)
    : (r: (Pool, Acquired))
    requires Linked(free)
    ensures r.0.supplier.ReuseOrAlloc? && r.1.Built? ==> r.1.node.next == None && r.1.node.hashCode == hashCode && r.1.node.index == index
    ensures free == [] ==> && r.0.supplier == ReuseOrAlloc([]) && r.1.Built?
                           && r.0.ledger.issued == l.issued + multiset{r.1.node.id} && r.0.ledger.freed == l.freed
                           && r.0.handed == handed + multiset{r.1.node.id}
    ensures free != [] ==> && r.0.supplier == ReuseOrAlloc(free[1..]) && r.0.ledger.issued == l.issued
                           && (fails ==> && r.1 == ConstructionFailed && r.0.handed == handed
                                         && r.0.ledger.freed == l.freed + multiset{free[0].id})
                           && (!fails ==> && r.1.Built? && r.1.node.id == free[0].id
                                          && r.0.ledger.freed == l.freed && r.0.handed == handed + multiset{free[0].id})
  {
    if free == [] then
      var (l1, node) := AllocateNode(l, index, hashCode);
      (Pool(ReuseOrAlloc([]), l1, handed + multiset{node.id}), Built(node))
    else
      var head := free[0];
      var rest := free[1..];
      var unlinked := head.(next := None);
      if fails then
        (Pool(ReuseOrAlloc(rest), GuardRelease(l, Some(unlinked.id)), handed), ConstructionFailed)
      else
        var node := unlinked.(hashCode := hashCode, index := index);
        (Pool(ReuseOrAlloc(rest), GuardRelease(l, None), handed + multiset{node.id}), Built(node))
  }

  /** `_AllocNode::operator()`: every acquisition is one host allocation; there is no free list. */
  function AcquireFresh(l: Ledger, handed: multiset<nat>, index: BackRef, hashCode: nat): (r: (Pool, Acquired))
    ensures r.0.supplier == AllocOnly && r.1.Built?
    ensures r.1.node.next == None && r.1.node.hashCode == hashCode && r.1.node.index == index
    ensures r.0.ledger.issued == l.issued + multiset{r.1.node.id} && r.0.ledger.freed == l.freed
    ensures r.0.handed == handed + multiset{r.1.node.id}
  {
    var (l1, node) := AllocateNode(l, index, hashCode);
    (Pool(AllocOnly, l1, handed + multiset{node.id}), Built(node))
  }

  /** Acquire a node from whichever supplier the table was configured with. */
  function Acquire(p: Pool, index: BackRef, hashCode: nat, fails: bool): (r: (Pool, Acquired))
    requires Linked(FreeList(p.supplier))
    ensures r.0.supplier.ReuseOrAlloc? == p.supplier.ReuseOrAlloc?
    ensures r.1.Built? ==> r.1.node.next == None && r.1.node.hashCode == hashCode && r.1.node.index == index
    ensures Accounted(p) ==> Accounted(r.0)
  {
    var r := match p.supplier
      case ReuseOrAlloc(free) => AcquireReuse(free, p.ledger, p.handed, index, hashCode, fails)
      case AllocOnly => AcquireFresh(p.ledger, p.handed, index, hashCode);
    assert Accounted(p) ==> Accounted(r.0) by {
      if Accounted(p) {
        AcquireAccounted(p, index, hashCode, fails, r);
      }
    }
    r
  }

  lemma AcquireAccounted(p: Pool, index: BackRef, hashCode: nat, fails: bool, r: (Pool, Acquired))
    requires Accounted(p)
    requires r == match p.supplier
      case ReuseOrAlloc(free) => AcquireReuse(free, p.ledger, p.handed, index, hashCode, fails)
      case AllocOnly => AcquireFresh(p.ledger, p.handed, index, hashCode)
    ensures Accounted(r.0)
  {
    var free := FreeList(p.supplier);
    if p.supplier.AllocOnly? || free == [] {
      FreshAccounted(p, r.0, r.1.node.id);
    } else {
      LinkedTail(free);
      if fails {
        RecycleFailedAccounted(p, r.0);
      } else {
        RecycleBuiltAccounted(p, r.0);
      }
    }
  }

  /** A fresh allocation handed to the table keeps the books balanced. */
  lemma FreshAccounted(p: Pool, q: Pool, id: nat)
    requires Accounted(p) && FreeList(q.supplier) == FreeList(p.supplier)
    requires id !in p.ledger.issued && Sound(q.ledger)
    requires q.ledger.issued == p.ledger.issued + multiset{id} && q.ledger.freed == p.ledger.freed
    requires q.handed == p.handed + multiset{id}
    ensures Accounted(q)
  {
  }

  /** A recycled head freed by the guard keeps the books balanced and frees nothing twice. */
  lemma RecycleFailedAccounted(p: Pool, q: Pool)
    requires Accounted(p) && p.supplier.ReuseOrAlloc? && p.supplier.free != []
    requires q.supplier == ReuseOrAlloc(p.supplier.free[1..]) && q.handed == p.handed
    requires q.ledger == Release(p.ledger, p.supplier.free[0].id)
    ensures Accounted(q)
  {
    var free := p.supplier.free;
    var h := free[0].id;
    var tail := multiset(Ids(free[1..]));
    LinkedTail(free);
    FreeHeadBalanced(p.ledger, h, tail, p.handed);
  }

  /** Freeing the pooled head keeps a balanced ledger sound and balanced, with the head now freed. */
  lemma FreeHeadBalanced(l: Ledger, h: nat, tail: multiset<nat>, handed: multiset<nat>)
    requires Sound(l) && l.issued == l.freed + (multiset{h} + tail) + handed
    ensures Sound(Release(l, h))
    ensures Release(l, h).issued == Release(l, h).freed + tail + handed
  {
    Balance(l, multiset{h} + tail, handed);
    assert h in Live(l);
  }

  /** A recycled head handed to the table keeps the books balanced. */
  lemma RecycleBuiltAccounted(p: Pool, q: Pool)
    requires Accounted(p) && p.supplier.ReuseOrAlloc? && p.supplier.free != []
    requires q.supplier == ReuseOrAlloc(p.supplier.free[1..]) && q.ledger == p.ledger
    requires q.handed == p.handed + multiset{p.supplier.free[0].id}
    ensures Accounted(q)
  {
    LinkedTail(p.supplier.free);
  }

  lemma SubtractHead(a: multiset<nat>, live: multiset<nat>, h: nat)
    requires multiset{h} + a <= live
    ensures h in live && a <= live - multiset{h}
  {
    assert (multiset{h} + a)[h] >= 1;
    forall x
      ensures a[x] <= (live - multiset{h})[x]
    {
      assert (multiset{h} + a)[x] <= live[x];
    }
  }

  /** Freeing the head of a list of live nodes leaves a sound ledger in which the rest are still live. */
  lemma ReleaseHead(nodes: seq<HashNode>, l: Ledger)
    requires Linked(nodes) && nodes != [] && Sound(l) && multiset(Ids(nodes)) <= Live(l)
    ensures Sound(Release(l, nodes[0].id))
    ensures multiset(Ids(nodes[1..])) <= Live(Release(l, nodes[0].id))
  {
    LinkedTail(nodes);
    SubtractHead(multiset(Ids(nodes[1..])), Live(l), nodes[0].id);
    ReleaseLive(l, nodes[0].id);
  }

  /** `_M_deallocate_nodes`: free every node of a list, walking its links. */
  function DeallocateNodes(nodes: seq<HashNode>, l: Ledger): (r: Ledger)
    requires Linked(nodes)
    ensures r.issued == l.issued && r.freed == l.freed + multiset(Ids(nodes))
    decreases |nodes|
  {
    if nodes == [] then l
    else
      LinkedTail(nodes);
      DeallocateNodes(nodes[1..], Release(l, nodes[0].id))
  }

  /** Freeing a list of live nodes frees nothing twice. */
  lemma {:induction false} DeallocateSound(nodes: seq<HashNode>, l: Ledger)
    requires Linked(nodes) && Sound(l) && multiset(Ids(nodes)) <= Live(l)
    ensures Sound(DeallocateNodes(nodes, l))
    decreases |nodes|
  {
    if nodes != [] {
      LinkedTail(nodes);
      ReleaseHead(nodes, l);
      DeallocateSound(nodes[1..], Release(l, nodes[0].id));
    }
  }

  /** Returning a balanced free list to the host leaves exactly the handed nodes live. */
  lemma ReturnFreeList(free: seq<HashNode>, l: Ledger, handed: multiset<nat>)
    requires Sound(l) && Linked(free) && l.issued == l.freed + multiset(Ids(free)) + handed
    ensures Sound(DeallocateNodes(free, l))
    ensures DeallocateNodes(free, l).issued == DeallocateNodes(free, l).freed + multiset(Ids([])) + handed
    ensures Live(DeallocateNodes(free, l)) == handed
  {
    var pooled := multiset(Ids(free));
    var r := DeallocateNodes(free, l);
    Balance(l, pooled, handed);
    DeallocateSound(free, l);
    assert r.issued == r.freed + multiset{} + handed by {
      assert r.freed == l.freed + pooled;
    }
    Balance(r, multiset{}, handed);
  }

  /** `~_ReuseOrAllocNode`: every node still pooled goes back to the host, and nothing else. */
  function Destroy(p: Pool): (r: Pool)
    requires Linked(FreeList(p.supplier))
    ensures FreeList(r.supplier) == [] && r.handed == p.handed
    ensures r.ledger.issued == p.ledger.issued
    ensures r.ledger.freed == p.ledger.freed + multiset(Ids(FreeList(p.supplier)))
    ensures Accounted(p) ==> Accounted(r) && Live(r.ledger) == r.handed
  {
    match p.supplier
    case AllocOnly =>
      assert Accounted(p) ==> Live(p.ledger) == p.handed by {
        if Accounted(p) {
          Balance(p.ledger, multiset{}, p.handed);
        }
      }
      p
    case ReuseOrAlloc(free) =>
      var r := Pool(ReuseOrAlloc([]), DeallocateNodes(free, p.ledger), p.handed);
      assert Accounted(p) ==> Accounted(r) && Live(r.ledger) == r.handed by {
        if Accounted(p) {
          ReturnFreeList(free, p.ledger, p.handed);
          assert FreeList(r.supplier) == [] && Linked([]);
        }
      }
      r
  }

  /** Successful acquisitions, one per request of (index, hash code). */
  function AcquireAll(p: Pool, requests: seq<(BackRef, nat)>): (r: Pool)
    requires Linked(FreeList(p.supplier))
    ensures Linked(FreeList(r.supplier))
    decreases |requests|
  {
    if requests == [] then p
    else
      var (p1, _) := Acquire(p, requests[0].0, requests[0].1, false);
      LinkedAfterAcquire(p, requests[0].0, requests[0].1);
      AcquireAll(p1, requests[1..])
  }

  lemma LinkedAfterAcquire(p: Pool, index: BackRef, hashCode: nat)
    requires Linked(FreeList(p.supplier))
    ensures Linked(FreeList(Acquire(p, index, hashCode, false).0.supplier))
  {
    if p.supplier.ReuseOrAlloc? && p.supplier.free != [] {
      LinkedTail(p.supplier.free);
    }
  }

  /**
   * A pool holding at least as many free nodes as there are requests serves
   * them all from the free list, in list order, with no host allocation.
   */
  lemma {:induction false} PoolServesWithoutAllocating(p: Pool, requests: seq<(BackRef, nat)>)
    requires p.supplier.ReuseOrAlloc? && Linked(p.supplier.free) && |requests| <= |p.supplier.free|
    ensures AcquireAll(p, requests).ledger.issued == p.ledger.issued
    ensures AcquireAll(p, requests).supplier == ReuseOrAlloc(p.supplier.free[|requests|..])
    decreases |requests|
  {
    if requests != [] {
      var (p1, _) := Acquire(p, requests[0].0, requests[0].1, false);
      LinkedTail(p.supplier.free);
      PoolServesWithoutAllocating(p1, requests[1..]);
      assert p.supplier.free[1..][|requests| - 1..] == p.supplier.free[|requests|..];
    }
  }

  /** Once the free list is used up, the next acquisition makes exactly one host allocation. */
  lemma PoolThenAllocates(p: Pool, requests: seq<(BackRef, nat)>)
    requires p.supplier.ReuseOrAlloc? && Linked(p.supplier.free) && |requests| == |p.supplier.free| + 1
    ensures |AcquireAll(p, requests).ledger.issued| == |p.ledger.issued| + 1
  {
    var n := |p.supplier.free|;
    PoolServesWithoutAllocating(p, requests[..n]);
    AcquireAllSplit(p, requests[..n], requests[n..]);
    assert requests[..n] + requests[n..] == requests;
  }

  lemma {:induction false} AcquireAllSplit(p: Pool, xs: seq<(BackRef, nat)>, ys: seq<(BackRef, nat)>)
    requires Linked(FreeList(p.supplier))
    ensures AcquireAll(p, xs + ys) == AcquireAll(AcquireAll(p, xs), ys)
    decreases |xs|
  {
    if xs == [] {
      assert xs + ys == ys;
    } else {
      var p1 := Acquire(p, xs[0].0, xs[0].1, false).0;
      LinkedAfterAcquire(p, xs[0].0, xs[0].1);
      assert (xs + ys)[0] == xs[0];
      assert (xs + ys)[1..] == xs[1..] + ys;
      assert AcquireAll(p, xs + ys) == AcquireAll(p1, xs[1..] + ys);
      assert AcquireAll(p, xs) == AcquireAll(p1, xs[1..]);
      AcquireAllSplit(p1, xs[1..], ys);
    }
  }
}

=== FILE: pow2.dfy ===
/**
 * Powers of two, the only capacities a sparse index array ever has, and the
 * capacity rule of its sized constructor.
 */
module Pow2 {

  /** n == 2^k for some k >= 0. */
  predicate IsPow2(n: nat)
    decreases n
  {
    n == 1 || (n >= 2 && n % 2 == 0 && IsPow2(n / 2))
  }

  lemma DoubleIsPow2(c: nat)
    requires IsPow2(c)
    ensures IsPow2(2 * c)
  {
    assert (2 * c) / 2 == c;
  }

  /** Between two powers of two there is at least a factor of two. */
  lemma {:induction false} NextPow2Fits(c: nat, big: nat)
    requires IsPow2(c) && IsPow2(big) && c < big
    ensures 2 * c <= big
    decreases c
  {
    if c != 1 {
      NextPow2Fits(c / 2, big / 2);
    }
  }

  /** A power of two in [n, 2n) is n itself, when n is a power of two. */
  lemma Pow2Between(n: nat, c: nat)
    requires IsPow2(n) && IsPow2(c) && n <= c < 2 * n
    ensures c == n
  {
    if n < c {
      NextPow2Fits(n, c);
    }
  }

  /**
   * The loop of the sized constructor: start at `cap` and double while the
   * capacity is still below `n`.
   */
  function DoubleUntil(cap: nat, n: nat): (c: nat)
    requires IsPow2(cap) && cap >= 2
    ensures IsPow2(c) && cap <= c && n <= c
    ensures c == cap || c < 2 * n
    decreases n - cap
  {
    if cap < n then
      DoubleIsPow2(cap);
      DoubleUntil(2 * cap, n)
    else
      cap
  }

  /** Capacity chosen for a request of n slots: the smallest power of two >= max(2, n). */
  function CapacityFor(n: nat): (c: nat)
    ensures IsPow2(c) && 2 <= c && n <= c
    ensures c == 2 || c < 2 * n
  {
    DoubleUntil(2, n)
  }

  /** No power of two at least max(2, n) is smaller than CapacityFor(n). */
  lemma CapacityForIsLeast(n: nat, other: nat)
    requires IsPow2(other) && 2 <= other && n <= other
    ensures CapacityFor(n) <= other
  {
    var c := CapacityFor(n);
    if other < c {
      NextPow2Fits(other, c);
    }
  }

  /** A power of two >= 2 is its own capacity. */
  lemma CapacityForPow2(n: nat)
    requires IsPow2(n) && n >= 2
    ensures CapacityFor(n) == n
  {
    CapacityForIsLeast(n, n);
  }
}

=== FILE: sparse_array.dfy ===
/**
 * The sparse index array (`_Silver_vector_base` / `svector`): a buffer of
 * optional back-references that stores neither its size nor its capacity.
 * Capacity is marked by an end tag in the last slot; size is the length of the
 * engaged prefix, which exists because all engaged slots precede all holes.
 *
 * This module holds the data model, the invariant, the constructors and the
 * pure buffer helpers; the searching and mutating algorithms are in SparseOps.
 */
module SparseArray {
  import opened Pow2

  /**
   * One cell of the buffer: an engaged back-reference, a disengaged hole, or
   * the end tag that marks the last slot of the allocation.
   */
  datatype Slot<T> = Engaged(value: T) | Hole | Sentinel

  /**
   * `slot == std::nullopt` in the source. Only a hole compares equal: the end
   * tag is itself an engaged optional holding -1 (or nullptr).
   */
  predicate Disengaged<T>(s: Slot<T>)
  {
    s.Hole?
  }

  /** The capacity marking: a power-of-two length of at least 2, end tag in the last slot and nowhere else. */
  predicate Tagged<T>(a: seq<Slot<T>>)
  {
    && 2 <= |a|
    && IsPow2(|a|)
    && a[|a| - 1].Sentinel?
    && forall i :: 0 <= i < |a| - 1 ==> !a[i].Sentinel?
  }

  /** The partition invariant: no engaged slot follows a non-engaged one. */
  predicate Partitioned<T>(a: seq<Slot<T>>)
  {
    forall i, j :: 0 <= i < j < |a| && a[j].Engaged? ==> a[i].Engaged?
  }

  predicate Valid<T>(a: seq<Slot<T>>)
  {
    Tagged(a) && Partitioned(a)
  }

  /** Number of engaged slots, wherever they are. */
  function Size<T>(a: seq<Slot<T>>): (n: nat)
    ensures n <= |a|
  {
    if |a| == 0 then 0 else (if a[0].Engaged? then 1 else 0) + Size(a[1..])
  }

  /** A buffer with no engaged slot has size 0. */
  lemma {:induction false} NoneEngaged<T>(a: seq<Slot<T>>)
    requires forall i :: 0 <= i < |a| ==> !a[i].Engaged?
    ensures Size(a) == 0
  {
    if |a| > 0 {
      NoneEngaged(a[1..]);
    }
  }

  /** In a partitioned buffer the engaged slots are exactly the first Size(a) ones. */
  lemma {:induction false} PartitionedPrefix<T>(a: seq<Slot<T>>)
    requires Partitioned(a)
    ensures Size(a) <= |a|
    ensures forall i :: 0 <= i < |a| ==> (a[i].Engaged? <==> i < Size(a))
  {
    if |a| > 0 {
      if a[0].Engaged? {
        var t := a[1..];
        assert Partitioned(t) by {
          forall i, j | 0 <= i < j < |t| && t[j].Engaged?
            ensures t[i].Engaged?
          {
            assert a[j + 1].Engaged?;
          }
        }
        PartitionedPrefix(t);
        forall i | 0 < i < |a|
          ensures a[i].Engaged? <==> i < Size(a)
        {
          assert a[i] == t[i - 1];
        }
      } else {
        NoneEngaged(a);
      }
    }
  }

  /** A boundary m that separates engaged from non-engaged slots makes the buffer partitioned with size m. */
  lemma {:induction false} BoundaryPartitioned<T>(a: seq<Slot<T>>, m: nat)
    requires m <= |a|
    requires forall i :: 0 <= i < |a| ==> (a[i].Engaged? <==> i < m)
    ensures Partitioned(a) && Size(a) == m
  {
    if |a| > 0 {
      var t := a[1..];
      var m' := if m > 0 then m - 1 else 0;
      forall i | 0 <= i < |t|
        ensures t[i].Engaged? <==> i < m'
      {
        assert t[i] == a[i + 1];
      }
      BoundaryPartitioned(t, m');
    }
  }

  /** In a valid buffer the end tag is never counted, so at most capacity-1 slots are engaged. */
  lemma ValidSizeBound<T>(a: seq<Slot<T>>)
    requires Valid(a)
    ensures Size(a) < |a|
    ensures forall i :: 0 <= i < |a| ==> (a[i].Engaged? <==> i < Size(a))
  {
    PartitionedPrefix(a);
  }

  /** PartitionedPrefix for a buffer that may or may not be valid. */
  lemma ValidPrefix<T>(a: seq<Slot<T>>)
    ensures Valid(a) ==> forall i :: 0 <= i < |a| ==> (a[i].Engaged? <==> i < Size(a))
  {
    if Valid(a) {
      PartitionedPrefix(a);
    }
  }

  /** The default constructor as documented: capacity 2, end tag in slot 1, nothing engaged. */
  function New<T>(): (a: seq<Slot<T>>)
    ensures Valid(a) && |a| == 2 && Size(a) == 0
  {
    var a: seq<Slot<T>> := [Hole, Sentinel];
    BoundaryPartitioned(a, 0);
    a
  }

  /**
   * Fresh memory from the allocator. Its content is indeterminate; the model
   * fills it with one arbitrary value `junk`, so a property proved for every
   * junk holds whatever the memory held.
   */
  function Allocate<T>(cap: nat, junk: Slot<T>): (r: seq<Slot<T>>)
    ensures |r| == cap && forall i :: 0 <= i < cap ==> r[i] == junk
  {
    seq(cap, _ => junk)
  }

  /**
   * `_Silver_vector_base(size_type n)`: allocate CapacityFor(n) slots and tag
   * the last one; the other slots keep their fresh content, so the buffer is
   * Tagged only when that content does not read as the tag.
   */
  function WithCapacity<T>(n: nat, junk: Slot<T>): (a: seq<Slot<T>>)
    ensures |a| == CapacityFor(n) && n <= |a| && IsPow2(|a|) && 2 <= |a|
    ensures a[|a| - 1].Sentinel?
    ensures forall i :: 0 <= i < |a| - 1 ==> a[i] == junk
    ensures !junk.Sentinel? <==> Tagged(a)
  {
    var cap := CapacityFor(n);
    var a := Allocate(cap, junk)[cap - 1 := Sentinel];
    assert 0 < cap - 1 && a[0] == junk;
    a
  }

  /** `_M_val_at` / `operator[]`: unchecked access, the caller keeps the index below capacity. */
  function At<T>(a: seq<Slot<T>>, i: nat): (s: Slot<T>)
    requires i < |a|
    ensures s == a[i]
    ensures Tagged(a) ==> (s.Sentinel? <==> i == |a| - 1)
    ensures Valid(a) ==> (s.Engaged? <==> i < Size(a))
  {
    ValidPrefix(a);
    a[i]
  }

  /** `_M_byte_blit(dst, src, count)`: the first `count` slots of `src` copied over `dst`. */
  function Blit<T>(dst: seq<Slot<T>>, src: seq<Slot<T>>, count: nat): (r: seq<Slot<T>>)
    requires count <= |src| && count <= |dst|
    ensures |r| == |dst|
    ensures forall i :: 0 <= i < count ==> r[i] == src[i]
    ensures forall i :: count <= i < |dst| ==> r[i] == dst[i]
  {
    src[..count] + dst[count..]
  }

  /**
   * `_M_fill_disengaged(from)` as documented: a hole in every slot from
   * `from` up to the position one less than the capacity. The bound is the
   * position, so the slots' previous content is never read.
   */
  function FillRange<T>(a: seq<Slot<T>>, from: nat): (r: seq<Slot<T>>)
    requires from < |a|
    ensures |r| == |a| && r[|a| - 1] == a[|a| - 1]
    ensures forall i :: 0 <= i < from ==> r[i] == a[i]
    ensures forall i :: from <= i < |a| - 1 ==> r[i] == Hole
    decreases |a| - from
  {
    if from == |a| - 1 then a else FillRange(a[from := Hole], from + 1)
  }

  /** Engaged slots holding `vals` in order. */
  function Engage<T>(vals: seq<T>): (r: seq<Slot<T>>)
    ensures |r| == |vals| && forall i :: 0 <= i < |vals| ==> r[i] == Engaged(vals[i])
  {
    seq(|vals|, i requires 0 <= i < |vals| => Engaged(vals[i]))
  }

  /** The back-references held by a run of engaged slots. */
  function Values<T>(s: seq<Slot<T>>): (r: seq<T>)
    requires forall i :: 0 <= i < |s| ==> s[i].Engaged?
    ensures |r| == |s| && forall i :: 0 <= i < |s| ==> s[i] == Engaged(r[i])
  {
    seq(|s|, i requires 0 <= i < |s| => s[i].value)
  }

  /**
   * The shared body of the initializer-list and copy constructors: a sized
   * buffer, the values blitted to its front, holes up to the end tag (a
   * range fill, so whatever the fresh memory held does not matter). The
   * buffer is sized for |vals| + 1 slots so that the end tag has a slot of
   * its own.
   */
  function Build<T>(vals: seq<T>, junk: Slot<T>): (a: seq<Slot<T>>)
    ensures Valid(a) && Size(a) == |vals|
    ensures |a| == CapacityFor(|vals| + 1)
    ensures forall i :: 0 <= i < |vals| ==> a[i] == Engaged(vals[i])
  {
    var buf := WithCapacity(|vals| + 1, junk);
    var filled := Blit(buf, Engage(vals), |vals|);
    var a := FillRange(filled, |vals|);
    BoundaryPartitioned(a, |vals|);
    a
  }

  /** `svector(std::initializer_list)`: the list's values engaged in order, holes after them. */
  function FromList<T>(xs: seq<T>, junk: Slot<T>): (a: seq<Slot<T>>)
    ensures Valid(a) && Size(a) == |xs| && |xs| < |a|
    ensures forall i :: 0 <= i < |xs| ==> At(a, i) == Engaged(xs[i])
    ensures forall c: nat :: IsPow2(c) && 2 <= c && |xs| < c ==> |a| <= c
  {
    var a := Build(xs, junk);
    forall c: nat | IsPow2(c) && 2 <= c && |xs| < c
      ensures |a| <= c
    {
      CapacityForIsLeast(|xs| + 1, c);
    }
    a
  }

  /** Reading back the engaged prefix of a list-built array gives the list. */
  lemma FromListRoundTrip<T>(xs: seq<T>, junk: Slot<T>)
    ensures var a := FromList(xs, junk);
            && (forall i :: 0 <= i < Size(a) ==> a[..Size(a)][i].Engaged?)
            && Values(a[..Size(a)]) == xs
  {
    var a := FromList(xs, junk);
    assert forall i :: 0 <= i < |xs| ==> a[i] == At(a, i);
  }
}

=== FILE: sparse_as_written.dfy ===
/**
 * The sparse index array's operations as the source writes them, where that
 * differs from their documented contract. Each member here comes with a
 * lemma exhibiting an input on which it goes wrong; the corrected members are
 * in SparseArray and SparseOps. Undefined behaviour (a read outside the
 * buffer) is made explicit as an outcome.
 */
module SparseAsWritten {
  import opened Wrappers
  import opened Pow2
  import opened SparseArray
  import SparseOps

  /** How a search ended: with a result, still looping after `fuel` steps, or reading outside the buffer. */
  datatype Outcome = Returned(size: nat, cap: nat) | OutOfFuel | OutOfBounds

  /** `size_type` is 64 bits wide: subtraction wraps around. */
  const SizeModulus: nat := 0x1_0000_0000_0000_0000

  function Minus(x: nat, y: nat): nat
  {
    (x - y) % SizeModulus
  }

  // ---------------------------------------------------------------------------
  // _M_capacity: the probe shifts right instead of doubling.

  function HalvingProbe<T>(a: seq<Slot<T>>, cap: nat): Option<nat>
    decreases cap
  {
    // with cap == 0 the index cap - 1 wraps to the largest size_type
    if cap == 0 || cap - 1 >= |a| then None
    else if a[cap - 1].Sentinel? then Some(cap)
    else HalvingProbe(a, cap / 2)
  }

  /** `_M_capacity` as written: start at 2, halve while the probed slot is not the end tag. */
  function CapacityAsWritten<T>(a: seq<Slot<T>>): Option<nat>
  {
    HalvingProbe(a, 2)
  }

  /** For every capacity of 4 or more the halving probe leaves the buffer instead of finding the tag. */
  lemma CapacityAsWrittenLeavesBuffer<T>(a: seq<Slot<T>>)
    requires Tagged(a) && |a| >= 4
    ensures CapacityAsWritten(a) == None
  {
    assert !a[1].Sentinel? && !a[0].Sentinel?;
  }

  // ---------------------------------------------------------------------------
  // _M_find_end: the end tag counts as engaged, and the last probe is reused.

  datatype Probe = Probe(idx: nat, cap: nat)

  /** The doubling probe of `_M_find_end` (the same in the source and in SparseOps.FindEnd). */
  function ProbeAsWritten<T>(a: seq<Slot<T>>, idx: nat, cap: nat): (p: Probe)
    requires Tagged(a) && IsPow2(cap) && 2 <= cap <= |a| && idx < cap
    ensures IsPow2(p.cap) && 2 <= p.cap <= |a| && p.idx < p.cap
    decreases |a| - cap
  {
    if a[cap - 1].Sentinel? || Disengaged(a[idx]) then Probe(idx, cap)
    else
      NextPow2Fits(cap, |a|);
      DoubleIsPow2(cap);
      ProbeAsWritten(a, cap, 2 * cap)
  }

  /** The converging loop as written: stop when aft - bfr == 1 and answer from the last probe. */
  function ConvergeAsWritten<T>(a: seq<Slot<T>>, cap: nat, idx: nat, bfr: nat, aft: nat, fuel: nat): Outcome
    requires idx < |a|
    decreases fuel
  {
    if fuel == 0 then OutOfFuel
    else if Minus(aft, bfr) == 1 then
      if Disengaged(a[idx]) then Returned(bfr + 1, cap) else Returned(idx + 1, cap)
    else
      var mid := bfr + Minus(aft, bfr) / 2;
      if mid >= |a| then OutOfBounds
      else if Disengaged(a[mid]) then ConvergeAsWritten(a, cap, mid, bfr, mid, fuel - 1)
      else ConvergeAsWritten(a, cap, mid, mid, aft, fuel - 1)
  }

  /**
   * `_M_find_end(hint)` as written, running the converging loop for at most
   * `fuel` iterations. The bracket's second correction tests `!= nullopt`,
   * which the end tag passes.
   */
  function FindEndAsWritten<T>(a: seq<Slot<T>>, hint: nat, fuel: nat): Outcome
    requires Tagged(a)
  {
    var p := ProbeAsWritten(a, 0, 2);
    var idx, cap := p.idx, p.cap;
    if idx == 0 then
      if Disengaged(a[0]) then Returned(0, cap) else Returned(1, cap)
    else
      var upr: nat := if hint < cap then (if hint < idx then idx else hint) else cap - 1;
      var lwr: nat := if hint < cap then (if hint < idx then hint else idx) else 0;
      var bfr0: nat := if Disengaged(a[idx]) then lwr else idx;
      var aft0: nat := if Disengaged(a[idx]) then idx else upr;
      var bfr1: nat := if Disengaged(a[bfr0]) then 0 else bfr0;
      var aft1: nat := if Disengaged(a[bfr0]) then lwr else aft0;
      var bfr2: nat := if !Disengaged(a[aft1]) then upr else bfr1;
      var aft2: nat := if !Disengaged(a[aft1]) then cap - 1 else aft1;
      ConvergeAsWritten(a, cap, idx, bfr2, aft2, fuel)
  }

  /** Three engaged values in a buffer of four slots. */
  function ThreeOfFour(): seq<Slot<int>>
  {
    [Engaged(10), Engaged(11), Engaged(12), Sentinel]
  }

  /** bfr == aft == 3 is a fixed point of the converging loop: the difference is 0, never 1. */
  lemma {:induction false} ConvergeAsWrittenStuck(fuel: nat)
    ensures ConvergeAsWritten(ThreeOfFour(), 4, 3, 3, 3, fuel) == OutOfFuel
  {
    if fuel > 0 {
      ConvergeAsWrittenStuck(fuel - 1);
    }
  }

  /**
   * On a more than half full buffer a hint past the capacity never returns:
   * however many iterations are allowed, the loop is still running.
   */
  lemma FindEndAsWrittenDiverges(fuel: nat)
    ensures Valid(ThreeOfFour()) && Size(ThreeOfFour()) == 3
    ensures FindEndAsWritten(ThreeOfFour(), 5, fuel) == OutOfFuel
  {
    var a := ThreeOfFour();
    assert IsPow2(|a|) by {
      DoubleIsPow2(2);
    }
    assert forall i :: 0 <= i < |a| ==> (a[i].Engaged? <==> i < 3);
    BoundaryPartitioned(a, 3);
    assert ProbeAsWritten(a, 2, 4) == Probe(2, 4);
    assert ProbeAsWritten(a, 0, 2) == Probe(2, 4);
    if fuel > 0 {
      ConvergeAsWrittenStuck(fuel - 1);
    }
  }

  /** Seven engaged values in a buffer of eight slots. */
  function SevenOfEight(): seq<Slot<int>>
  {
    [Engaged(0), Engaged(1), Engaged(2), Engaged(3), Engaged(4), Engaged(5), Engaged(6), Sentinel]
  }

  /** SevenOfEight is a valid array holding seven values. */
  lemma SevenOfEightValid()
    ensures Valid(SevenOfEight()) && Size(SevenOfEight()) == 7
  {
    var a := SevenOfEight();
    assert IsPow2(|a|) by {
      DoubleIsPow2(2);
      DoubleIsPow2(4);
    }
    assert forall i :: 0 <= i < |a| ==> (a[i].Engaged? <==> i < 7);
    BoundaryPartitioned(a, 7);
  }

  /** With hint 6 the bracket is already one wide, and the stale probe index 4 gives size 5 instead of 7. */
  lemma FindEndAsWrittenStaleIndex(fuel: nat)
    requires fuel > 0
    ensures Valid(SevenOfEight()) && Size(SevenOfEight()) == 7
    ensures FindEndAsWritten(SevenOfEight(), 6, fuel) == Returned(5, 8)
  {
    var a := SevenOfEight();
    SevenOfEightValid();
    assert ProbeAsWritten(a, 4, 8) == Probe(4, 8);
    assert ProbeAsWritten(a, 2, 4) == Probe(4, 8);
    assert ProbeAsWritten(a, 0, 2) == Probe(4, 8);
  }

  // ---------------------------------------------------------------------------
  // Default constructor: slot 0 is never initialised.

  /** `_Silver_vector_base()` as written: two fresh slots, only slot 1 constructed (the end tag). */
  function NewAsWritten<T>(junk: Slot<T>): seq<Slot<T>>
  {
    Allocate(2, junk)[1 := Sentinel]
  }

  /** When the fresh memory happens to read as engaged, a newly built array is not empty. */
  lemma NewAsWrittenNotEmpty(x: int)
    ensures Valid(NewAsWritten(Engaged(x))) && Size(NewAsWritten(Engaged(x))) == 1
  {
    var a := NewAsWritten(Engaged(x));
    assert a == [Engaged(x), Sentinel];
    BoundaryPartitioned(a, 1);
  }

  // ---------------------------------------------------------------------------
  // _M_construct_at: the holes are filled in the old buffer, not the new one.

  /**
   * `_M_construct_at(pos, v)` as written. The reallocation is guarded by
   * `_cap < _new_cap` (a false guard would leave the buffer null: None); the
   * new buffer gets the tag and the blitted prefix, but the hole filling runs
   * over the old buffer, so the new buffer's middle keeps its fresh content.
   */
  function ConstructAtAsWritten<T>(a: seq<Slot<T>>, pos: nat, v: T, junk: Slot<T>): Option<seq<Slot<T>>>
    requires Valid(a) && pos < |a|
  {
    if a[pos].Sentinel? then
      var newCap := (pos + 1) * 2;
      var cap := ProbeAsWritten(a, 0, 2).cap;
      var n := Size(a);
      if cap < newCap then
        var tmp := Allocate(newCap, junk)[newCap - 1 := Sentinel];
        Some(Blit(tmp, a, n)[pos := Engaged(v)])
      else
        None
    else
      Some(a[pos := Engaged(v)])
  }

  /** The "no need to reallocate" branch is dead: whenever pos holds the tag, the guard holds. */
  lemma ConstructAtAsWrittenAlwaysGrows<T>(a: seq<Slot<T>>, pos: nat, v: T, junk: Slot<T>)
    requires Valid(a) && pos < |a| && a[pos].Sentinel?
    ensures ConstructAtAsWritten(a, pos, v, junk).Some?
    ensures |ConstructAtAsWritten(a, pos, v, junk).value| == 2 * |a|
  {
  }

  /** Appending to [7] at the tag, with fresh memory reading 9: the grown buffer holds a phantom third value. */
  lemma ConstructAtAsWrittenPhantom()
    ensures ConstructAtAsWritten([Engaged(7), Sentinel], 1, 8, Engaged(9))
              == Some([Engaged(7), Engaged(8), Engaged(9), Sentinel])
    ensures Size([Engaged(7), Engaged(8), Engaged(9), Sentinel]) == 3
  {
    var a: seq<Slot<int>> := [Engaged(7), Sentinel];
    BoundaryPartitioned(a, 1);
    assert ProbeAsWritten(a, 0, 2) == Probe(0, 2);
    var tmp := Allocate(4, Engaged(9))[3 := Sentinel];
    assert tmp == [Engaged(9), Engaged(9), Engaged(9), Sentinel];
    assert Blit(tmp, a, 1) == [Engaged(7), Engaged(9), Engaged(9), Sentinel];
    assert a[1].Sentinel? && Size(a) == 1;
    assert ConstructAtAsWritten(a, 1, 8, Engaged(9)) == Some(Blit(tmp, a, 1)[1 := Engaged(8)]);
    assert Blit(tmp, a, 1)[1 := Engaged(8)] == [Engaged(7), Engaged(8), Engaged(9), Sentinel];
    BoundaryPartitioned([Engaged(7), Engaged(8), Engaged(9), Sentinel], 3);
  }

  // ---------------------------------------------------------------------------
  // _M_clear: `while(*_begin)` is true for the end tag as well.

  /**
   * `_M_clear` as written (read as `_begin->reset()`): reset slots while the
   * optional is engaged, and the end tag is engaged.
   */
  function ClearAsWritten<T>(a: seq<Slot<T>>, i: nat): Option<seq<Slot<T>>>
    decreases |a| - i
  {
    if i >= |a| then None
    else if Disengaged(a[i]) then Some(a)
    else ClearAsWritten(a[i := Hole], i + 1)
  }

  lemma {:induction false} ClearAsWrittenRunsOff<T>(a: seq<Slot<T>>, i: nat)
    requires i <= |a| && (forall k :: i <= k < |a| ==> !Disengaged(a[k]))
    ensures ClearAsWritten(a, i) == None
    decreases |a| - i
  {
    if i < |a| {
      ClearAsWrittenRunsOff(a[i := Hole], i + 1);
    }
  }

  /** On a full buffer the as-written clear erases the end tag and reads past the buffer. */
  lemma ClearAsWrittenFull<T>(a: seq<Slot<T>>)
    requires Valid(a) && Size(a) == |a| - 1
    ensures ClearAsWritten(a, 0) == None
  {
    ValidSizeBound(a);
    ClearAsWrittenRunsOff(a, 0);
  }

  // ---------------------------------------------------------------------------
  // Copy and initializer-list constructors: the buffer is sized for n, not n + 1.

  /**
   * `_M_fill_disengaged(from)` as written: walk from `from` and put a hole in
   * every slot until a slot reads as the end tag; with no tag ahead the walk
   * leaves the buffer (None). When the only tag ahead is the real one, the
   * walk agrees with the range fill of the doc comment.
   */
  function FillAsWritten<T>(a: seq<Slot<T>>, from: nat): (r: Option<seq<Slot<T>>>)
    ensures (forall i :: from <= i < |a| ==> !a[i].Sentinel?) ==> r == None
    ensures r.Some? ==> |r.value| == |a| && forall i :: 0 <= i < from ==> r.value[i] == a[i]
    ensures from < |a| && a[|a| - 1].Sentinel? && (forall i :: from <= i < |a| - 1 ==> !a[i].Sentinel?) ==>
              r == Some(FillRange(a, from))
    decreases |a| - from
  {
    if from >= |a| then None
    else if a[from].Sentinel? then Some(a)
    else FillAsWritten(a[from := Hole], from + 1)
  }

  /**
   * The walk stops at the first slot t at or after `from` that reads as the
   * tag: the slots in [from, t) become holes and every other slot, the
   * stale tag at t included, is kept.
   */
  lemma {:induction false} FillAsWrittenStops<T>(a: seq<Slot<T>>, from: nat, t: nat)
    requires from <= t < |a| && a[t].Sentinel?
    requires forall i :: from <= i < t ==> !a[i].Sentinel?
    ensures FillAsWritten(a, from).Some?
    ensures |FillAsWritten(a, from).value| == |a|
    ensures forall i :: from <= i < t ==> FillAsWritten(a, from).value[i] == Hole
    ensures forall i :: 0 <= i < |a| && !(from <= i < t) ==> FillAsWritten(a, from).value[i] == a[i]
    decreases t - from
  {
    if from < t {
      FillAsWrittenStops(a[from := Hole], from + 1, t);
    }
  }

  /**
   * The body shared by `svector(initializer_list)` and the copy constructor,
   * as written: `_Silver_vector_base(n)`, blit n values, fill from n.
   */
  function BuildAsWritten<T>(vals: seq<T>, junk: Slot<T>): Option<seq<Slot<T>>>
  {
    var buf := WithCapacity(|vals|, junk);
    FillAsWritten(Blit(buf, Engage(vals), |vals|), |vals|)
  }

  /** For a power-of-two count of 2 or more the blit overwrites the end tag and the fill runs off the buffer. */
  lemma BuildAsWrittenOverwritesTag<T>(vals: seq<T>, junk: Slot<T>)
    requires IsPow2(|vals|) && |vals| >= 2
    ensures WithCapacity(|vals|, junk)[|vals| - 1].Sentinel?
    ensures BuildAsWritten(vals, junk) == None
  {
    CapacityForPow2(|vals|);
  }

  /** The corrected Build reserves a slot for the tag, so the same input yields a valid array. */
  lemma BuildKeepsTag<T>(vals: seq<T>, junk: Slot<T>)
    requires IsPow2(|vals|) && |vals| >= 2
    ensures Valid(Build(vals, junk)) && |Build(vals, junk)| == 2 * |vals|
  {
    DoubleIsPow2(|vals|);
    CapacityForIsLeast(|vals| + 1, 2 * |vals|);
    var c := CapacityFor(|vals| + 1);
    if c < 2 * |vals| {
      Pow2Between(|vals|, c);
    }
  }

  // ---------------------------------------------------------------------------
  // _M_fill_disengaged: the walk stops at the first slot that reads as the tag.

  /**
   * Five values make the as-written list constructor allocate 8 slots, so the
   * tag keeps a slot of its own; but when the fresh memory reads as the tag (a
   * recycled block that held one), the fill walks no further than slot 5 and
   * leaves stale tags before the real one. The corrected Build, which fills by
   * position, leaves holes there instead.
   */
  lemma BuildAsWrittenStopsAtStaleTag()
    ensures BuildAsWritten([1, 2, 3, 4, 5], Sentinel)
            == Some([Engaged(1), Engaged(2), Engaged(3), Engaged(4), Engaged(5), Sentinel, Sentinel, Sentinel])
    ensures !Tagged(BuildAsWritten([1, 2, 3, 4, 5], Sentinel).value)
    ensures Build([1, 2, 3, 4, 5], Sentinel)
            == [Engaged(1), Engaged(2), Engaged(3), Engaged(4), Engaged(5), Hole, Hole, Sentinel]
  {
    DoubleIsPow2(2);
    DoubleIsPow2(4);
    CapacityForIsLeast(5, 8);
    CapacityForIsLeast(6, 8);
    var buf: seq<Slot<int>> := WithCapacity(5, Sentinel);
    var filled := Blit(buf, Engage([1, 2, 3, 4, 5]), 5);
    assert filled == [Engaged(1), Engaged(2), Engaged(3), Engaged(4), Engaged(5), Sentinel, Sentinel, Sentinel];
    var b := Build([1, 2, 3, 4, 5], Sentinel);
  }
}

=== FILE: sparse_ops.dfy ===
/**
 * The algorithms of the sparse index array: the capacity probe, the
 * converging end search, and the mutations (construct-at with growth, clear,
 * erase by bubbling, copy). Each keeps the partition invariant that makes the
 * end search correct.
 */
module SparseOps {
  import opened Pow2
  import opened SparseArray

  /**
   * The second result of `_M_find_end`: the capacity at which its doubling
   * probe stopped. For n engaged slots in a buffer of `capacity` slots it is
   * 2 when nothing is engaged, and otherwise the least power of two c >= 4
   * with n <= c/2, or `capacity` if that one is smaller.
   */
  predicate ProbedCapacity(cap: nat, n: nat, capacity: nat)
  {
    && IsPow2(cap) && 2 <= cap <= capacity
    && (n == 0 ==> cap == 2)
    && (n > 0 ==> (cap == capacity || 2 * n <= cap) && (cap <= 4 || cap < 4 * n) && (4 <= cap || capacity == 2))
  }

  /** ProbedCapacity names one value: it states the probe's result exactly. */
  lemma ProbedCapacityUnique(c1: nat, c2: nat, n: nat, capacity: nat)
    requires ProbedCapacity(c1, n, capacity) && ProbedCapacity(c2, n, capacity)
    ensures c1 == c2
  {
    if c1 < c2 {
      NextPow2Fits(c1, c2);
    } else if c2 < c1 {
      NextPow2Fits(c2, c1);
    }
  }

  /**
   * The probed capacity is adequate but not minimal: one value in 8 slots
   * probes to 4 where 2 slots hold it and the tag, and three values in 8
   * slots probe to 8 where 4 suffice.
   */
  lemma ProbedCapacityNotMinimal()
    ensures ProbedCapacity(4, 1, 8) && CapacityFor(1 + 1) == 2
    ensures ProbedCapacity(8, 3, 8) && CapacityFor(3 + 1) == 4
  {
  }

  /**
   * `_M_capacity` as documented: a probe that starts at 2 and doubles until
   * the probed slot holds the end tag. Every read is inside the buffer.
   */
  method Capacity<T>(a: seq<Slot<T>>) returns (c: nat)
    requires Tagged(a)
    ensures c == |a|
  {
    c := 2;
    while !a[c - 1].Sentinel?
      invariant 2 <= c <= |a| && IsPow2(c)
      decreases |a| - c
    {
      NextPow2Fits(c, |a|);
      DoubleIsPow2(c);
      c := 2 * c;
    }
  }

  /**
   * `_M_find_end(hint)`: the number of engaged slots, found by a doubling
   * probe followed by a converging bisection seeded from `hint`, and the
   * capacity at which the probe stopped. Correct for every hint, including
   * hints at or past the capacity.
   */
  method FindEnd<T>(a: seq<Slot<T>>, hint: nat) returns (size: nat, cap: nat)
    requires Valid(a)
    ensures size == Size(a)
    ensures ProbedCapacity(cap, size, |a|) && size < cap
  {
    ValidSizeBound(a);
    ghost var n := Size(a);
    var idx: nat := 0;
    cap := 2;
    // doubling probe: stop at the tag, or at a hole in the middle slot of the probed prefix
    while !a[cap - 1].Sentinel?
      invariant 2 <= cap <= |a| && IsPow2(cap)
      invariant idx == 0 ==> cap == 2
      invariant idx != 0 ==> 2 * idx == cap && 4 <= cap && 0 < n && (cap == 4 || cap < 4 * n)
      decreases |a| - cap
    {
      if Disengaged(a[idx]) {
        break;
      }
      NextPow2Fits(cap, |a|);
      DoubleIsPow2(cap);
      cap := 2 * cap;
      idx := cap / 2;
    }
    assert a[cap - 1].Sentinel? ==> cap == |a|;
    if idx == 0 {
      // the probe stopped at 2 slots: the size is 0 or 1, read off slot 0
      if Disengaged(a[idx]) {
        return 0, cap;
      } else {
        return 1, cap;
      }
    }
    assert Disengaged(a[idx]) || cap == |a|;
    var upr: nat := cap - 1;
    var lwr: nat := 0;
    if hint < cap {
      upr := if hint < idx then idx else hint;
      lwr := if hint < idx then hint else idx;
    }
    var bfr: nat := if Disengaged(a[idx]) then lwr else idx;
    var aft: nat := if Disengaged(a[idx]) then idx else upr;
    if Disengaged(a[bfr]) {
      aft := lwr;
      bfr := 0;
    }
    // the end tag is not an element: only an engaged slot moves the bracket to the end
    if a[aft].Engaged? {
      bfr := upr;
      aft := cap - 1;
    }
    assert bfr < n <= aft;
    assert aft < cap;
    // the converging bisection
    while aft - bfr != 1
      invariant bfr < aft < cap
      invariant bfr < n <= aft
      decreases aft - bfr
    {
      idx := bfr + (aft - bfr) / 2;
      if Disengaged(a[idx]) {
        aft := idx;
      } else {
        bfr := idx;
      }
    }
    return bfr + 1, cap;
  }

  /** `_M_cap_size`: the same two values as FindEnd(0), capacity first. */
  method CapSize<T>(a: seq<Slot<T>>) returns (cap: nat, size: nat)
    requires Valid(a)
    ensures size == Size(a)
    ensures ProbedCapacity(cap, size, |a|) && size < cap
  {
    size, cap := FindEnd(a, 0);
  }

  /** `svector::size`: the number of engaged slots. */
  method SvSize<T>(a: seq<Slot<T>>) returns (size: nat)
    requires Valid(a)
    ensures size == Size(a)
    ensures forall i :: 0 <= i < |a| ==> (a[i].Engaged? <==> i < size)
  {
    ValidSizeBound(a);
    var _, s := CapSize(a);
    size := s;
  }

  /** `svector::empty`: true exactly when no slot is engaged. */
  method Empty<T>(a: seq<Slot<T>>) returns (e: bool)
    requires Valid(a)
    ensures e <==> Size(a) == 0
    ensures e <==> forall i :: 0 <= i < |a| ==> !a[i].Engaged?
  {
    var size := SvSize(a);
    e := size == 0;
  }

  /**
   * The growth step of `_M_construct_at`: a buffer of twice the capacity
   * holding the engaged prefix, holes after it, and the end tag re-tagged in
   * its new last slot.
   */
  function Grown<T>(a: seq<Slot<T>>, n: nat, junk: Slot<T>): (g: seq<Slot<T>>)
    requires Valid(a) && n == Size(a)
    ensures |g| == 2 * |a| && Tagged(g)
    ensures forall i :: 0 <= i < n ==> g[i] == a[i]
    ensures forall i :: n <= i < |g| - 1 ==> g[i] == Hole
  {
    ValidSizeBound(a);
    DoubleIsPow2(|a|);
    Relocate(a, n, 2 * |a|, junk)
  }

  /** The allocate, blit and fill steps of Grown, stated over the engaged prefix only. */
  function Relocate<T>(a: seq<Slot<T>>, n: nat, newCap: nat, junk: Slot<T>): (g: seq<Slot<T>>)
    requires n < newCap && n <= |a|
    requires forall i :: 0 <= i < n ==> a[i].Engaged?
    ensures |g| == newCap && g[newCap - 1] == Sentinel
    ensures forall i :: 0 <= i < n ==> g[i] == a[i]
    ensures forall i :: n <= i < newCap - 1 ==> g[i] == Hole
  {
    var tmp := Allocate(newCap, junk)[newCap - 1 := Sentinel];
    FillRange(Blit(tmp, a, n), n)
  }

  /** Storing a value at the boundary of a partitioned, tagged buffer extends the engaged prefix by one. */
  lemma StoreAtBoundary<T>(b: seq<Slot<T>>, m: nat, v: T)
    requires m < |b| - 1 && Tagged(b)
    requires forall i :: 0 <= i < |b| ==> (b[i].Engaged? <==> i < m)
    ensures Valid(b[m := Engaged(v)]) && Size(b[m := Engaged(v)]) == m + 1
  {
    BoundaryPartitioned(b[m := Engaged(v)], m + 1);
  }

  /** Overwriting an engaged slot keeps the partition and the size. */
  lemma StoreInPrefix<T>(b: seq<Slot<T>>, m: nat, p: nat, v: T)
    requires p < m < |b| && Tagged(b)
    requires forall i :: 0 <= i < |b| ==> (b[i].Engaged? <==> i < m)
    ensures Valid(b[p := Engaged(v)]) && Size(b[p := Engaged(v)]) == m
  {
    BoundaryPartitioned(b[p := Engaged(v)], m);
  }

  /**
   * `_M_construct_at(pos, v)` as documented. When `pos` holds the end tag the
   * buffer grows to (pos + 1) * 2 slots (see Grown) and then `v` is stored at
   * `pos`; otherwise `v` is stored in place. Returns the written position and
   * whether the buffer grew.
   */
  method ConstructAt<T>(a: seq<Slot<T>>, pos: nat, v: T, junk: Slot<T>)
    returns (r: seq<Slot<T>>, at: nat, grew: bool)
    requires Valid(a) && pos < |a|
    ensures at == pos && pos < |r| && r[pos] == Engaged(v)
    ensures grew <==> pos == |a| - 1
    ensures !grew ==> |r| == |a| && forall i :: 0 <= i < |a| && i != pos ==> r[i] == a[i]
    ensures grew ==> && |r| == (pos + 1) * 2 == 2 * |a| && Tagged(r)
                     && (forall i :: 0 <= i < Size(a) ==> r[i] == a[i])
                     && (forall i :: Size(a) <= i < |r| - 1 && i != pos ==> r[i] == Hole)
    ensures pos == Size(a) ==> Valid(r) && Size(r) == Size(a) + 1
    ensures pos < Size(a) ==> Valid(r) && Size(r) == Size(a)
    ensures pos > Size(a) ==> !Partitioned(r)
  {
    ghost var m := Size(a);
    var b;
    b, grew := MakeRoom(a, pos, junk);
    r := b[pos := Engaged(v)];
    at := pos;
    StoreKeepsTag(b, pos, v);
    if pos == m {
      StoreAtBoundary(b, pos, v);
    } else if pos < m {
      StoreInPrefix(b, m, pos, v);
    } else {
      assert !r[m].Engaged? && r[pos].Engaged?;
    }
  }

  /**
   * The first half of `_M_construct_at`: when `pos` holds the end tag, grow
   * the buffer (see Grown) so that `pos` becomes an ordinary slot.
   */
  method MakeRoom<T>(a: seq<Slot<T>>, pos: nat, junk: Slot<T>) returns (b: seq<Slot<T>>, grew: bool)
    requires Valid(a) && pos < |a|
    ensures grew <==> pos == |a| - 1
    ensures pos < |b| - 1 && Tagged(b)
    ensures forall i :: 0 <= i < |b| ==> (b[i].Engaged? <==> i < Size(a))
    ensures !grew ==> b == a
    ensures grew ==> && |b| == (pos + 1) * 2 == 2 * |a|
                     && (forall i :: 0 <= i < Size(a) ==> b[i] == a[i])
                     && (forall i :: Size(a) <= i < |b| - 1 ==> b[i] == Hole)
  {
    ValidSizeBound(a);
    if a[pos].Sentinel? {
      var _, n := CapSize(a);
      b := Grown(a, n, junk);
      grew := true;
    } else {
      b := a;
      grew := false;
    }
  }

  /** Storing a value anywhere before the end tag keeps the buffer tagged. */
  lemma StoreKeepsTag<T>(b: seq<Slot<T>>, p: nat, v: T)
    requires Tagged(b) && p < |b| - 1
    ensures Tagged(b[p := Engaged(v)])
  {
  }

  /**
   * `_M_clear` as documented: disengage the engaged slots from the front,
   * stopping at the first slot that is not engaged; the buffer is kept.
   */
  method Clear<T>(a: seq<Slot<T>>) returns (r: seq<Slot<T>>)
    requires Valid(a)
    ensures Valid(r) && |r| == |a| && Size(r) == 0
    ensures forall i :: 0 <= i < |a| - 1 ==> r[i] == Hole
  {
    ValidSizeBound(a);
    r := a;
    var i := 0;
    while r[i].Engaged?
      invariant 0 <= i <= Size(a) && |r| == |a|
      invariant forall k :: 0 <= k < i ==> r[k] == Hole
      invariant forall k :: i <= k < |a| ==> r[k] == a[k]
      decreases |a| - i
    {
      r := r[i := Hole];
      i := i + 1;
    }
    BoundaryPartitioned(r, 0);
  }

  /** `svector::clear`: recycle the buffer; afterwards the array is empty and keeps its capacity. */
  method SvClear<T>(a: seq<Slot<T>>) returns (r: seq<Slot<T>>, empty: bool, cap: nat)
    requires Valid(a)
    ensures Valid(r) && empty && cap == |a| == |r|
  {
    r := Clear(a);
    empty := Empty(r);
    cap := Capacity(r);
  }

  /**
   * Erase by bubbling: the value at `pos` is swapped step by step to the last
   * engaged slot, which is then disengaged. The other values keep their order.
   */
  method Erase<T>(a: seq<Slot<T>>, pos: nat) returns (r: seq<Slot<T>>)
    requires Valid(a) && pos < Size(a)
    ensures Valid(r) && |r| == |a| && Size(r) == Size(a) - 1
    ensures forall i :: 0 <= i < pos ==> r[i] == a[i]
    ensures forall i :: pos <= i < Size(a) - 1 ==> r[i] == a[i + 1]
  {
    ValidSizeBound(a);
    var n := SvSize(a);
    r := a;
    var j := pos;
    while j + 1 < n
      invariant pos <= j < n && |r| == |a|
      invariant forall i :: 0 <= i < pos ==> r[i] == a[i]
      invariant forall i :: pos <= i < j ==> r[i] == a[i + 1]
      invariant r[j] == a[pos]
      invariant forall i :: j < i < |a| ==> r[i] == a[i]
      decreases n - j
    {
      var t := r[j];
      r := r[j := r[j + 1]][j + 1 := t];
      j := j + 1;
    }
    r := r[n - 1 := Hole];
    BoundaryPartitioned(r, n - 1);
  }

  /**
   * The copy constructor as documented: a fresh buffer sized for the engaged
   * values only, holding them in order, holes after them. The source's holes
   * are not copied, so the copy is never larger than the source.
   */
  method Copy<T>(a: seq<Slot<T>>, junk: Slot<T>) returns (r: seq<Slot<T>>)
    requires Valid(a)
    ensures |r| == CapacityFor(Size(a) + 1) && |r| <= |a|
    ensures Valid(r) && Size(r) == Size(a)
    ensures forall i :: 0 <= i < Size(a) ==> r[i] == a[i]
  {
    ValidSizeBound(a);
    var sz := SvSize(a);
    r := Build(Values(a[..sz]), junk);
    CapacityForIsLeast(sz + 1, |a|);
  }
}

=== FILE: wrappers.dfy ===
/** Optional values, the model's stand-in for a nullable pointer or `std::optional`. */
module Wrappers {

  datatype Option<+T> = None | Some(value: T)

}
